=== FILE: README.md ===
# Tile dungeon: turn order, board layout and food economy in Dafny

This project models the game logic of a small turn-based tile dungeon. The
player walks a grid one cell at a time and pays one food point per step.
They chop inner walls, pick up food and soda, and reach the exit to load
the next "day". Enemies walk toward the player on every other turn and bite
when they bump into them. When the food reaches zero the game manager
shows the game-over card and switches itself off. As the code is written,
an enemy phase already running still finishes and hands the turn back
once, so the player may take one more step; after that the turn never
returns.

The modules follow the components of the game:

- `Int32` models C#'s unchecked 32-bit `int`: `+=` and `-=` wrap around.
- `Wrappers` holds `Option` and `Result`.
- `Grid` holds cells, unit directions and distinctness of sequences.
- `MovingObject` holds the outcome the physics engine reports for one step.
- `FoodRules` models `Food`, the player's food points.
- `WallRules` models `Wall`, a destructible inner wall.
- `EnemyRules` models `Enemy`: the skip-every-other-turn toggle, the chase
  direction, and the bite.
- `PlayerRules` models `Player`: input normalisation, paying for a step,
  chopping walls, pickups, and the game-over check.
- `TouchSwipe` models `TouchInput`, the swipe detector.
- `BoardLayout` models `BoardManager`: the background frame, the pool of
  free interior cells, the random placement of walls, food and enemies, the
  enemy count per level, and the exit.
- `TurnManager` models `GameManager`: the level counter, the enemy list,
  the three turn flags, the `Update` guard, the `MoveEnemies` coroutine, and
  game over.

Randomness (`Random.Range`) becomes caller-supplied choices, constrained to
the values `Random.Range` can return. The physics engine's answer to a step
becomes an `Outcome`: `Moved`, `BlockedByTarget` or `BlockedByOther`. The
waits of the coroutine become `Wait` entries of a trace. Food points and wall
hit points are 32-bit values that wrap around, as in C#. The level counter is
an unbounded natural number.

## Model

| member | source | states |
|---|---|---|
| FoodRules.New | Assets/_Complete-Game/Scripts/Food.cs:5-8 | a new store holds exactly the initial value |
| FoodRules.Add | Assets/_Complete-Game/Scripts/Food.cs:12 | the amount grows by exactly `value` when no overflow occurs, and is always congruent to it modulo 2^32 |
| FoodRules.Remove | Assets/_Complete-Game/Scripts/Food.cs:13 | the amount shrinks by exactly `value` when no overflow occurs, and is always congruent to it modulo 2^32 |
| FoodRules.AddThenRemove | Assets/_Complete-Game/Scripts/Food.cs:12-13 | removing what was added restores the store, even across a wrap-around |
| FoodRules.RemoveThenAdd | Assets/_Complete-Game/Scripts/Food.cs:12-13 | adding what was removed restores the store, even across a wrap-around |
| FoodRules.RemoveCanGoNegative | Assets/_Complete-Game/Scripts/Food.cs:13 | nothing clamps the amount: removing more than is left makes it negative |
| FoodRules.RemoveAllTotal | Assets/_Complete-Game/Scripts/Food.cs:13 | a series of removals equals one removal of their total, wrapped once |
| WallRules.Fresh | Assets/_Complete-Game/Scripts/Wall.cs:12 | a placed wall has 3 hit points, is active, and shows the intact sprite |
| WallRules.DamageWall | Assets/_Complete-Game/Scripts/Wall.cs:26-41 | every hit shows the damaged sprite and takes `loss` hit points; zero or fewer switches the wall off; otherwise its active flag is unchanged |
| WallRules.ThreeHitsToBreak | Assets/_Complete-Game/Scripts/Wall.cs:12-40 | with damage 1 a fresh wall counts down 3, 2, 1 and falls on exactly the third hit |
| WallRules.InactiveStaysInactive | Assets/_Complete-Game/Scripts/Wall.cs:37-40 | a wall that is down stays down under any number of further hits |
| EnemyRules.Spawn | Assets/_Complete-Game/Scripts/Enemy.cs:8-13 | a new enemy does not skip its first call and carries its configured damage |
| EnemyRules.ChooseDirection | Assets/_Complete-Game/Scripts/Enemy.cs:47-63 | a single unit step; vertical exactly when enemy and player share a column, and its sign points toward the player |
| EnemyRules.StepApproachesTarget | Assets/_Complete-Game/Scripts/Enemy.cs:55-63 | the chosen step lowers the Manhattan distance to the player by exactly one |
| EnemyRules.AttemptMove | Assets/_Complete-Game/Scripts/Enemy.cs:29-43 | the call is skipped exactly when the skip flag was set; the flag always flips; a real call attempts the given direction |
| EnemyRules.MoveEnemy | Assets/_Complete-Game/Scripts/Enemy.cs:47-67 | the call is skipped exactly when the skip flag was set, and the flag flips; an attempted step is the chosen chase direction, a cardinal unit step, and carries the physics outcome unchanged, so a step blocked by the player reaches `OnCantMove` |
| EnemyRules.DamageDealt | Assets/_Complete-Game/Scripts/Enemy.cs:69-73 | the player loses `playerDamage` exactly when a real attempt was blocked by the player |
| EnemyRules.ActsOnAlternateCalls | Assets/_Complete-Game/Scripts/Enemy.cs:29-43 | over a series of calls the enemy acts on every other one, starting with the first for a fresh enemy |
| PlayerRules.Start | Assets/_Complete-Game/Scripts/Player.cs:29-38 | the food saved at the end of the last level is kept; without one the store starts at `PlayerFoodPoints` |
| PlayerRules.Normalise | Assets/_Complete-Game/Scripts/Player.cs:44-48 | a horizontal component wins and zeroes the vertical one; the result is zero exactly when the input is |
| PlayerRules.NormaliseKeepsUnitSteps | Assets/_Complete-Game/Scripts/Player.cs:44-51 | unit axis inputs never become a diagonal step, and a non-zero input becomes a cardinal step |
| PlayerRules.LoseFood | Assets/_Complete-Game/Scripts/Player.cs:59-67 | the food drops by `loss`; game over is signalled exactly when the food left is zero or less |
| PlayerRules.AttemptMove | Assets/_Complete-Game/Scripts/Player.cs:74-106 | one food is paid whether or not the step succeeds; a wall in the way takes `WallDamage`, any other outcome leaves it alone; game over exactly when no food is left |
| PlayerRules.Update | Assets/_Complete-Game/Scripts/Player.cs:40-106 | a step is attempted exactly on the player's turn with non-zero input, in the normalised direction; it costs one food, keeps the player enabled, chops a wall that blocks it by `WallDamage` and leaves the wall alone otherwise; game over is signalled exactly when the food is gone; otherwise nothing changes |
| PlayerRules.OnTriggerEnterAsWritten | Assets/_Complete-Game/Scripts/Player.cs:110-153 | as the code is written, a food item removes `PointsPerFood`, is consumed, schedules no restart and leaves the player enabled; every other tag behaves as in the corrected pickup |
| PlayerRules.FoodPickupAsWrittenLosesPoints | Assets/_Complete-Game/Scripts/Player.cs:123-126 | with the code as written, 100 food becomes 90 after eating |
| PlayerRules.OnTriggerEnter | Assets/_Complete-Game/Scripts/Player.cs:110-153 | the exit switches the player off and schedules the restart; food and soda add their points and are consumed; other tags change nothing |
| PlayerRules.PickupNeverLosesFood | Assets/_Complete-Game/Scripts/Player.cs:122-152 | with the corrected pickup, no trigger lowers the food short of overflow |
| TouchSwipe.Classify | Assets/_Complete-Game/Scripts/TouchInput.cs:26-33 | a swipe gives a cardinal unit step; horizontal exactly when strictly wider than tall; its sign follows the swipe |
| TouchSwipe.GetInput | Assets/_Complete-Game/Scripts/TouchInput.cs:9-37 | no touch reads zero; `Began` records the origin; a step is read exactly on an `Ended` touch while armed, and it disarms |
| TouchSwipe.TapIsStepDown | Assets/_Complete-Game/Scripts/TouchInput.cs:26-33 | a touch that ends where it began reads as a step down |
| TouchSwipe.StepNeedsArming | Assets/_Complete-Game/Scripts/TouchInput.cs:14-24 | a step is read only after a `Began` at x >= 0 (or an armed start) with no `Ended` touch in between |
| TouchSwipe.EndWithoutBeginIsIgnored | Assets/_Complete-Game/Scripts/TouchInput.cs:7-24 | from the initial origin, an `Ended` touch with no arming `Began` before it reads zero |
| BoardLayout.InteriorSize | Assets/_Complete-Game/Scripts/BoardManager.cs:51-53 | the interior has (columns - 2) x (rows - 2) cells, or none on a board narrower than 3 |
| BoardLayout.InitialiseList | Assets/_Complete-Game/Scripts/BoardManager.cs:45-56 | the pool holds exactly the interior cells, each once, column by column |
| BoardLayout.KindAt | Assets/_Complete-Game/Scripts/BoardManager.cs:71-75 | a cell gets an outer-wall tile exactly when it lies on the ring around the board |
| BoardLayout.InteriorIsFloor | Assets/_Complete-Game/Scripts/BoardManager.cs:51-75 | every pool cell lies inside the frame and gets a floor tile |
| BoardLayout.BoardSetup | Assets/_Complete-Game/Scripts/BoardManager.cs:60-84 | one tile for every cell of the frame from -1 to the size, each exactly once, outer walls exactly on the ring |
| BoardLayout.RandomPosition | Assets/_Complete-Game/Scripts/BoardManager.cs:88-101 | the entry at the index is returned and removed; the others keep their order; an empty pool is an error |
| BoardLayout.TakenAt | Assets/_Complete-Game/Scripts/BoardManager.cs:88-114 | the i-th cell taken is entry `draws[i]` of the pool as the first i draws left it |
| BoardLayout.PoolAfterKeepsOrder | Assets/_Complete-Game/Scripts/BoardManager.cs:94-97 | taking entries out leaves the remaining cells in their original column-major order |
| BoardLayout.DrawsPartitionPool | Assets/_Complete-Game/Scripts/BoardManager.cs:105-122 | the cells taken and the pool left hold exactly the cells of the original pool; from a pool without repeats they are distinct and disjoint |
| BoardLayout.LayoutObjectAtRandom | Assets/_Complete-Game/Scripts/BoardManager.cs:105-122 | the chosen number of cells is taken, one per draw at the drawn index of the pool as it then stands; the pool left keeps its order; no cell is lost or gained; fails exactly when the count exceeds the pool; distinct pools give distinct placements |
| BoardLayout.EnemyCount | Assets/_Complete-Game/Scripts/BoardManager.cs:141 | the enemy count n is floor(log2(level)): 2^n <= level < 2^(n+1) |
| BoardLayout.EnemyCountUnique | Assets/_Complete-Game/Scripts/BoardManager.cs:141 | only one count satisfies that bracket |
| BoardLayout.EnemyCountMonotone | Assets/_Complete-Game/Scripts/BoardManager.cs:141-144 | a later level never has fewer enemies |
| BoardLayout.EnemyCountSamples | Assets/_Complete-Game/Scripts/BoardManager.cs:141 | levels 1, 2, 3, 4 and 8 have 0, 1, 1, 2 and 3 enemies |
| BoardLayout.SetupScene | Assets/_Complete-Game/Scripts/BoardManager.cs:126-148 | the frame is covered; the pool holds the interior cells in order; walls, then food, then enemies are taken by their own draws from what the previous kinds left, on distinct interior cells; the exit is the top-right cell of the board, just outside the interior, so it is none of the placements; fails exactly when the pool is too small |
| BoardLayout.DefaultBoardFits | Assets/_Complete-Game/Scripts/BoardManager.cs:29-32 | with the exact enemy count (see `BoardLayout.EnemyCount` under "Left out"), the default 8 x 8 board holds every wall, food and enemy for any level below 2^23 |
| TurnManager.BeginLevel | Assets/_Complete-Game/Scripts/GameManager.cs:84-105 | a level begins in setup with an empty enemy list; the other state is kept |
| TurnManager.InitGame | Assets/_Complete-Game/Scripts/GameManager.cs:84-109 | setup starts, the enemy list is cleared, and the board for the current level is laid out with everything `BoardLayout.SetupScene` promises (`BoardLayout.LaidOut`): frame, pool, placements tied to the draws, exit, and the failure condition |
| TurnManager.Awake | Assets/_Complete-Game/Scripts/GameManager.cs:27-64 | the first level is 1, with the player's turn flag and the setup flag both set, an enabled manager, and no enemies; the board for level 1 is laid out as `BoardLayout.SetupScene` promises |
| TurnManager.OnSceneLoaded | Assets/_Complete-Game/Scripts/GameManager.cs:76-80 | the level goes up by exactly one before the board is laid out for it, as `BoardLayout.SetupScene` promises for the new level |
| TurnManager.HideLevelImage | Assets/_Complete-Game/Scripts/GameManager.cs:113-120 | setup ends and nothing else changes |
| TurnManager.Update | Assets/_Complete-Game/Scripts/GameManager.cs:123-133 | an enemy phase starts only when no flag is set, and afterwards another cannot start |
| TurnManager.NoSecondPhase | Assets/_Complete-Game/Scripts/GameManager.cs:123-133 | a second frame while the phase runs changes nothing |
| TurnManager.AddEnemyToList | Assets/_Complete-Game/Scripts/GameManager.cs:136-140 | the enemy is appended; the enemies already listed keep their places |
| TurnManager.RegisterAllAppends | Assets/_Complete-Game/Scripts/Enemy.cs:16-18 | after their `Start` calls the list holds the spawned enemies, once each, in start order |
| TurnManager.GameOver | Assets/_Complete-Game/Scripts/GameManager.cs:144-154 | the manager switches off, so no enemy phase can start; nothing else changes |
| TurnManager.SetupEndsOnlyByHiding | Assets/_Complete-Game/Scripts/GameManager.cs:84-120 | only hiding the level card ends setup, and only a scene load starts it |
| TurnManager.LevelCountsLoads | Assets/_Complete-Game/Scripts/GameManager.cs:76-80 | the level equals its start value plus the number of scene loads |
| TurnManager.TurnsStayExclusive | Assets/_Complete-Game/Scripts/GameManager.cs:123-185 | the player's turn and a running enemy phase never coincide, whatever happens |
| TurnManager.GameOverIsFinal | Assets/_Complete-Game/Scripts/GameManager.cs:144-154 | after game over no event turns the manager back on |
| TurnManager.PlayerUpdateAsWritten | Assets/_Complete-Game/Scripts/Player.cs:40-106 | only the player's turn flag is consulted; a step costs one food, hands the turn over, keeps the player enabled and chops a blocking wall by `WallDamage`; game over is signalled exactly when the food is gone; otherwise nothing changes |
| TurnManager.PlayerStepsDuringSetup | Assets/_Complete-Game/Scripts/Player.cs:42 | as written, a step is accepted while the level card is up, costing food and leaving setup in progress |
| TurnManager.PlayerUpdate | Assets/_Complete-Game/Scripts/GameManager.cs:86-87 | with the setup guard, a step is taken only on the player's turn outside setup, costs one food, hands the turn over, keeps the player enabled and chops a blocking wall by `WallDamage`; game over is signalled exactly when the food is gone |
| TurnManager.NoStepDuringSetup | Assets/_Complete-Game/Scripts/GameManager.cs:86-87 | with the setup guard, no input changes anything while the level card is up |
| TurnManager.PlayerStepsAfterGameOver | Assets/_Complete-Game/Scripts/GameManager.cs:144-154 | as the code is written, game over leaves the player's input live: when a phase that was already running hands the turn back, one more step is accepted and costs food |
| TurnManager.TurnNeverReturns | Assets/_Complete-Game/Scripts/GameManager.cs:123-185 | once the manager is off with no phase running and the turn handed over, no later event gives the player the turn or starts a phase |
| TurnManager.SelfStarveStopsPlay | Assets/_Complete-Game/Scripts/Player.cs:88-93 | a player who starves on their own step leaves the manager off, the turn handed over and no phase running, so play stops |
| TurnManager.StarvesAfterSomeHit | Assets/_Complete-Game/Scripts/Player.cs:59-67 | the phase signals game over exactly when some enemy's bite leaves no food |
| TurnManager.MoveEach | Assets/_Complete-Game/Scripts/GameManager.cs:171-178 | every enemy in list order makes one `MoveEnemy` call followed by a wait; its skip flag flips; the player loses every bite in that order |
| TurnManager.MoveEnemies | Assets/_Complete-Game/Scripts/GameManager.cs:157-185 | one `TurnDelay`, a second only with no enemies, then a call and a wait per enemy; the turn goes back to the player; the manager switches off exactly when a bite starves the player |

## Left out

- Sound, animation, sprites and text: `SoundManager`, the animation
  components, the damaged-wall sprite (kept only as a flag), and the
  "Day n" and food texts are presentation.
- Prefab choice: which floor, wall, food or enemy prefab is drawn has no
  effect on the rules, so only the cells are modelled.
- Random number distribution: the values `Random.Range` returns are inputs
  constrained to its range, not probabilities.
- BoardLayout.EnemyCount: the source computes `(int)Mathf.Log(level, 2f)`
  in single-precision floating point; the model uses the exact integer
  floor of the base-2 logarithm, which may differ from the float result
  near powers of two for very large levels.
- BoardLayout.LayoutObjectAtRandom: when the pool runs out mid-way, the
  source has already placed the objects drawn before the exception; the
  model returns only the error.
- PlayerRules.AttemptMove: the source's `base.AttemptMove` also calls
  `Move` before the player calls `Move` a second time. `MovingObject` is
  not part of this model. The single physics `Outcome` stands for the
  step as a whole.
- Physics: the linecast, colliders and smooth movement of `MovingObject`
  are replaced by the `Outcome` of a step and by the cells the caller
  supplies.
- The singleton check, `DontDestroyOnLoad`, `Loader` and the scene-load
  callback registration are engine plumbing. A scene load is modelled as
  the `OnSceneLoaded` call itself.
- `KeyboardInput` and `FoodManager` are inputs: the keyboard's axis values
  are a `Dir`, and the saved food is an `Option` given to `PlayerRules.Start`.
- Concurrency of coroutines: an enemy phase runs atomically between
  `Update` starting it and its last wait. Nothing in the code cancels a
  phase when a scene loads, so an interleaving with a level change is
  not modelled.
- BoardLayout.LayoutObjectAtRandom: for a reversed count range whose
  maximum is below minimum - 1, only `minimum` is admitted as the count;
  what `Random.Range` returns for such bounds is engine behaviour outside
  this model. A range whose maximum is minimum - 1 gives `minimum`, as
  `Random.Range` does for equal bounds.
- Game over does not stop play at once, and the model says so rather than
  hiding it. `GameOver` only disables the manager. A bite that starves the
  player lets the running `MoveEnemies` call the remaining enemies and hand
  the turn back (`TurnManager.MoveEnemies`). The player then takes one more
  step (`TurnManager.PlayerStepsAfterGameOver`). No phase starts after
  that, so the turn never returns (`TurnManager.TurnNeverReturns`). A
  player who starves on their own step gets no further turn
  (`TurnManager.SelfStarveStopsPlay`).
- `_pointsPerFood`, `_pointsPerSoda` and `_wallDamage` of `Player`, and
  the public `_hp` of `Wall`, are serialized fields an editor may change;
  the model fixes them at the code's defaults (10, 20, 1 and 3).
- The board size and the `Count` bounds are unbounded integers. The
  source's `maximum + 1` would wrap at `int.MaxValue`; such a count range
  is not modelled.
- The level counter is unbounded; a 32-bit overflow would need more than
  two billion levels.
- Touch positions are exact reals, not single-precision floats.
- A board smaller than 3 x 3 has an empty pool rather than a separate
  error; the first draw from it fails with `PoolExhausted`. This follows
  the code's loops.
- An enemy steps horizontally whenever it is not in the player's column.
  This follows the code's test of the x distance; it does not pick the
  axis with the larger distance.

## Findings

| source | as written | input that shows it | evidently intended | confidence | as-written member | corrected member |
|---|---|---|---|---|---|---|
| Assets/_Complete-Game/Scripts/Player.cs:126 | walking onto a "Food" item calls `Remove(_pointsPerFood)` | a player with 100 food steps onto a food item and is left with 90 | `Add(_pointsPerFood)`, giving 110, as the comment above it and the "+10" message say | high; not executed | PlayerRules.OnTriggerEnterAsWritten | PlayerRules.OnTriggerEnter |
| Assets/_Complete-Game/Scripts/Player.cs:42 | `Update` tests only `_playersTurn`, which is still set while `InitGame` has `_doingSetup` set | right after `Awake` or a scene load, a non-zero input is accepted behind the level card: one food is paid and the enemy phase then waits for `HideLevelImage` | the player cannot move while `_doingSetup` is set, as the comment at GameManager.cs:86 says | medium; not executed | TurnManager.PlayerUpdateAsWritten | TurnManager.PlayerUpdate |

=== FILE: board.dfy ===
/**
 `BoardManager`: lays out one level. The frame one cell wider than the
 board gets floor tiles with an outer-wall ring; inner walls, food and
 enemies are placed at cells drawn without replacement from a pool of
 interior cells; the exit sits at a fixed corner.

 Unity's `Random.Range` is replaced by the caller's choices: the object
 counts and, for every draw, the index into the pool as it stands at that
 draw. Which prefab of a tile array is instantiated is not modelled.
 */
module BoardLayout {
  import opened Grid
  import opened Wrappers

  /** `BoardManager.Count`: an inclusive range for a random object count. */
  datatype Count = Count(minimum: int, maximum: int)

  /** The serialized fields of the board: size and object-count ranges. */
  datatype Config = Config(columns: int, rows: int, wallCount: Count, foodCount: Count)

  /** The defaults the component is declared with. */
  const Default: Config := Config(8, 8, Count(5, 9), Count(1, 5))

  datatype TileKind = Floor | OuterWall

  /** One instantiated background tile. */
  datatype Tile = Tile(cell: Cell, kind: TileKind)

  /** `RandomPosition` on an empty pool indexes past the end of the list and
      throws; the exception aborts the rest of the level layout. */
  datatype LayoutError = PoolExhausted

  function Max(a: int, b: int): int {
    if a < b then b else a
  }

  /** The number of integers in [lo, hi]. */
  function Span(lo: int, hi: int): nat {
    if hi < lo then 0 else hi - lo + 1
  }

  /** Cells eligible for walls, food and enemies: the board minus its edge. */
  predicate Interior(c: Cell, columns: int, rows: int) {
    1 <= c.x <= columns - 2 && 1 <= c.y <= rows - 2
  }

  /** The frame covered by `BoardSetup`, one cell wider than the board on each side. */
  predicate InFrame(c: Cell, columns: int, rows: int) {
    -1 <= c.x <= columns && -1 <= c.y <= rows
  }

  /** The outermost ring of the frame, which gets outer-wall tiles. */
  predicate OnRing(c: Cell, columns: int, rows: int) {
    c.x == -1 || c.x == columns || c.y == -1 || c.y == rows
  }

  function InteriorSize(columns: int, rows: int): (n: nat)
    ensures columns >= 2 && rows >= 2 ==> n == (columns - 2) * (rows - 2)
    ensures columns < 2 || rows < 2 ==> n == 0
  {
    Span(1, columns - 2) * Span(1, rows - 2)
  }

  /** Column-major order: by x, then by y. Both loops of the board walk cells in this order. */
  predicate Before(a: Cell, b: Cell) {
    a.x < b.x || (a.x == b.x && a.y < b.y)
  }

  predicate Increasing(cells: seq<Cell>) {
    forall i, j :: 0 <= i < j < |cells| ==> Before(cells[i], cells[j])
  }

  lemma IncreasingIsDistinct(cells: seq<Cell>)
    requires Increasing(cells)
    ensures Distinct(cells)
  {
  }

  /** A cell that comes after every cell so far may be appended in order. */
  lemma AppendIncreasing(cells: seq<Cell>, c: Cell)
    requires Increasing(cells)
    requires forall d :: d in cells ==> Before(d, c)
    ensures Increasing(cells + [c])
  {
    forall i, j | 0 <= i < j < |cells| + 1 ensures Before((cells + [c])[i], (cells + [c])[j]) {
      if j == |cells| {
        assert cells[i] in cells;
      }
    }
  }

  /** `InitialiseList`: the pool is rebuilt to hold every interior cell
      exactly once, column by column. A board too small to have an interior
      gives an empty pool; nothing fails. */
  method InitialiseList(columns: int, rows: int) returns (pool: seq<Cell>)
    ensures forall c :: c in pool <==> Interior(c, columns, rows)
    ensures Increasing(pool)
    ensures Distinct(pool)
    ensures |pool| == InteriorSize(columns, rows)
  {
    var height := Span(1, rows - 2);
    pool := [];
    var x := 1;
    while x < columns - 1
      invariant 1 <= x <= Max(1, columns - 1)
      invariant forall c :: c in pool <==> 1 <= c.x < x && 1 <= c.y <= rows - 2
      invariant Increasing(pool)
      invariant |pool| == (x - 1) * height
    {
      var y := 1;
      while y < rows - 1
        invariant 1 <= y <= Max(1, rows - 1)
        invariant forall c :: c in pool <==> (1 <= c.x < x && 1 <= c.y <= rows - 2) || (c.x == x && 1 <= c.y < y)
        invariant Increasing(pool)
        invariant |pool| == (x - 1) * height + (y - 1)
      {
        AppendIncreasing(pool, Cell(x, y));
        pool := pool + [Cell(x, y)];
        y := y + 1;
      }
      assert y - 1 == height;
      x := x + 1;
    }
    IncreasingIsDistinct(pool);
  }

  /** The tile kind `BoardSetup` picks for a cell of the frame. */
  function KindAt(c: Cell, columns: int, rows: int): (k: TileKind)
    ensures k == OuterWall <==> OnRing(c, columns, rows)
  {
    if OnRing(c, columns, rows) then OuterWall else Floor
  }

  function CellsOf(tiles: seq<Tile>): (cells: seq<Cell>)
    ensures |cells| == |tiles|
    ensures forall i :: 0 <= i < |tiles| ==> cells[i] == tiles[i].cell
  {
    seq(|tiles|, i requires 0 <= i < |tiles| => tiles[i].cell)
  }

  /** Every tile has the kind `BoardSetup` picks for its cell. */
  predicate KindsMatch(tiles: seq<Tile>, columns: int, rows: int) {
    forall i :: 0 <= i < |tiles| ==> tiles[i].kind == KindAt(tiles[i].cell, columns, rows)
  }

  /** The tiles cover the frame, each cell exactly once, with an outer wall
      exactly on the ring and floor everywhere else. */
  ghost predicate CoversFrame(tiles: seq<Tile>, columns: int, rows: int) {
    && (forall c :: c in CellsOf(tiles) <==> InFrame(c, columns, rows))
    && Distinct(CellsOf(tiles))
    && KindsMatch(tiles, columns, rows)
  }


  /** The pool never reaches the ring: every interior cell lies in the frame
      and gets a floor tile. */
  lemma InteriorIsFloor(c: Cell, columns: int, rows: int)
    requires Interior(c, columns, rows)
    ensures InFrame(c, columns, rows) && KindAt(c, columns, rows) == Floor
  {
  }

  /** `BoardSetup`: one tile per cell of the frame, visited column by column. */
  method BoardSetup(columns: int, rows: int) returns (tiles: seq<Tile>)
    ensures CoversFrame(tiles, columns, rows)
    ensures Increasing(CellsOf(tiles))
    ensures |tiles| == Span(-1, columns) * Span(-1, rows)
  {
    var height := Span(-1, rows);
    tiles := [];
    ghost var cells: seq<Cell> := [];
    var x := -1;
    while x < columns + 1
      invariant -1 <= x <= Max(-1, columns + 1)
      invariant cells == CellsOf(tiles)
      invariant forall c :: c in cells <==> -1 <= c.x < x && -1 <= c.y <= rows
      invariant Increasing(cells)
      invariant KindsMatch(tiles, columns, rows)
      invariant |tiles| == (x + 1) * height
    {
      var y := -1;
      while y < rows + 1
        invariant -1 <= y <= Max(-1, rows + 1)
        invariant cells == CellsOf(tiles)
        invariant forall c :: c in cells <==> (-1 <= c.x < x && -1 <= c.y <= rows) || (c.x == x && -1 <= c.y < y)
        invariant Increasing(cells)
        invariant KindsMatch(tiles, columns, rows)
        invariant |tiles| == (x + 1) * height + (y + 1)
      {
        var kind := Floor;
        if x == -1 || x == columns || y == -1 || y == rows {
          kind := OuterWall;
        }
        AppendIncreasing(cells, Cell(x, y));
        tiles := tiles + [Tile(Cell(x, y), kind)];
        cells := cells + [Cell(x, y)];
        y := y + 1;
      }
      assert y + 1 == height;
      x := x + 1;
    }
    IncreasingIsDistinct(cells);
  }

  /** The cell a draw picked and the pool left behind. */
  datatype Draw = Draw(cell: Cell, rest: seq<Cell>)

  /** `RandomPosition`: take out the entry at the chosen index. The pool
      shrinks by exactly that one entry and the others keep their order;
      an empty pool is an error. */
  function RandomPosition(pool: seq<Cell>, index: int): (r: Result<Draw, LayoutError>)
    requires pool == [] || 0 <= index < |pool|
    ensures r.Err? <==> pool == []
    ensures r.Ok? ==> r.value.cell == pool[index]
    ensures r.Ok? ==> |r.value.rest| == |pool| - 1
    ensures r.Ok? ==> r.value.rest[..index] == pool[..index] && r.value.rest[index..] == pool[index + 1..]
    ensures r.Ok? ==> forall c :: c in pool <==> c == r.value.cell || c in r.value.rest
    ensures r.Ok? && Distinct(pool) ==> Distinct(r.value.rest) && r.value.cell !in r.value.rest
  {
    if pool == [] then Err(PoolExhausted)
    else
      var rest := pool[..index] + pool[index + 1..];
      assert forall c :: c in pool <==> c == pool[index] || c in rest by {
        assert pool == pool[..index] + [pool[index]] + pool[index + 1..];
      }
      assert Distinct(pool) ==> Distinct(rest) && pool[index] !in rest by {
        if Distinct(pool) {
          forall i, j | 0 <= i < j < |rest| ensures rest[i] != rest[j] {
            var i' := if i < index then i else i + 1;
            var j' := if j < index then j else j + 1;
            assert rest[i] == pool[i'] && rest[j] == pool[j'];
          }
          forall i | 0 <= i < |rest| ensures rest[i] != pool[index] {
            var i' := if i < index then i else i + 1;
            assert rest[i] == pool[i'];
          }
        }
      }
      Ok(Draw(pool[index], rest))
  }

  /** The draws a caller may supply: the `i`-th draw, made while the pool
      still holds `poolSize - i` cells, indexes into it. */
  predicate ValidDraws(draws: seq<int>, poolSize: int, count: int) {
    && (count <= poolSize ==> count <= |draws|)
    && (poolSize < count ==> poolSize <= |draws|)
    && forall i :: 0 <= i < |draws| && i < count && i < poolSize ==> 0 <= draws[i] < poolSize - i
  }

  /** The first `k` draws each index into the pool as it stands at that draw. */
  predicate DrawsFit(poolSize: int, draws: seq<int>, k: nat) {
    && k <= |draws|
    && forall i :: 0 <= i < k ==> 0 <= draws[i] < poolSize - i
  }

  lemma ValidDrawsFit(draws: seq<int>, poolSize: int, count: int, k: nat)
    requires ValidDraws(draws, poolSize, count)
    requires k <= poolSize && k <= count
    ensures DrawsFit(poolSize, draws, k)
  {
  }

  /** The pool after the first `k` draws, each of which takes out the entry
      at its index and leaves the others in their order. */
  function PoolAfter(pool: seq<Cell>, draws: seq<int>, k: nat): (rest: seq<Cell>)
    requires k <= |pool| && DrawsFit(|pool|, draws, k)
    ensures |rest| == |pool| - k
    decreases k
  {
    if k == 0 then pool
    else
      var before := PoolAfter(pool, draws, k - 1);
      var d := draws[k - 1];
      before[..d] + before[d + 1..]
  }

  /** The cells the first `k` draws take, in order of the draws. */
  function Taken(pool: seq<Cell>, draws: seq<int>, k: nat): (cells: seq<Cell>)
    requires k <= |pool| && DrawsFit(|pool|, draws, k)
    ensures |cells| == k
    decreases k
  {
    if k == 0 then []
    else Taken(pool, draws, k - 1) + [PoolAfter(pool, draws, k - 1)[draws[k - 1]]]
  }

  /** Draw `i` takes entry `draws[i]` of the pool as the earlier draws left it. */
  lemma {:induction false} TakenAt(pool: seq<Cell>, draws: seq<int>, k: nat, i: nat)
    requires k <= |pool| && DrawsFit(|pool|, draws, k)
    requires i < k
    ensures Taken(pool, draws, k)[i] == PoolAfter(pool, draws, i)[draws[i]]
    decreases k
  {
    if i < k - 1 {
      TakenAt(pool, draws, k - 1, i);
    }
  }

  /** Drawing keeps the pool in its original (column-major) order. */
  lemma {:induction false} PoolAfterKeepsOrder(pool: seq<Cell>, draws: seq<int>, k: nat)
    requires k <= |pool| && DrawsFit(|pool|, draws, k)
    requires Increasing(pool)
    ensures Increasing(PoolAfter(pool, draws, k))
    decreases k
  {
    if k > 0 {
      PoolAfterKeepsOrder(pool, draws, k - 1);
      var before := PoolAfter(pool, draws, k - 1);
      var d := draws[k - 1];
      var rest := before[..d] + before[d + 1..];
      forall i, j | 0 <= i < j < |rest| ensures Before(rest[i], rest[j]) {
        var i' := if i < d then i else i + 1;
        var j' := if j < d then j else j + 1;
        assert rest[i] == before[i'] && rest[j] == before[j'];
      }
    }
  }

  /** Drawing loses and gains no cell, and from a pool without repeats it
      takes distinct cells that are gone from what is left. */
  lemma {:induction false} DrawsPartitionPool(pool: seq<Cell>, draws: seq<int>, k: nat)
    requires k <= |pool| && DrawsFit(|pool|, draws, k)
    ensures forall c :: c in pool <==> c in Taken(pool, draws, k) || c in PoolAfter(pool, draws, k)
    ensures Distinct(pool) ==>
              && Distinct(Taken(pool, draws, k))
              && Distinct(PoolAfter(pool, draws, k))
              && forall c :: c in Taken(pool, draws, k) ==> c !in PoolAfter(pool, draws, k)
    decreases k
  {
    if k > 0 {
      DrawsPartitionPool(pool, draws, k - 1);
      var before := PoolAfter(pool, draws, k - 1);
      var d := draws[k - 1];
      var r := RandomPosition(before, d);
      assert r.value.rest == PoolAfter(pool, draws, k);
      assert Taken(pool, draws, k) == Taken(pool, draws, k - 1) + [before[d]];
    }
  }

  /** The cells taken, in order of placement, and the pool left behind. */
  datatype Placement = Placement(placed: seq<Cell>, pool: seq<Cell>)

  /** The counts `Random.Range(minimum, maximum + 1)` can return: its upper
      bound is exclusive, and equal bounds give `minimum`. */
  predicate InCount(minimum: int, maximum: int, objectCount: int) {
    minimum <= objectCount <= Max(minimum, maximum)
  }

  /** `LayoutObjectAtRandom`: place a count chosen by `Random.Range` of
      objects, each at the cell the next draw takes from the pool. The cells
      placed are pairwise distinct, come from the pool and are gone from it.
      Demanding more cells than the pool holds is an error. */
  method LayoutObjectAtRandom(pool: seq<Cell>, minimum: int, maximum: int, objectCount: int, draws: seq<int>)
    returns (r: Result<Placement, LayoutError>)
    requires InCount(minimum, maximum, objectCount)
    requires ValidDraws(draws, |pool|, objectCount)
    ensures r.Err? <==> objectCount > |pool|
    ensures r.Ok? ==> |r.value.placed| == Max(0, objectCount)
    ensures r.Ok? ==> DrawsFit(|pool|, draws, |r.value.placed|)
    ensures r.Ok? ==> r.value.placed == Taken(pool, draws, |r.value.placed|)
    ensures r.Ok? ==> r.value.pool == PoolAfter(pool, draws, |r.value.placed|)
    ensures r.Ok? ==> |r.value.pool| == |pool| - |r.value.placed|
    ensures r.Ok? ==> forall c :: c in pool <==> c in r.value.placed || c in r.value.pool
    ensures r.Ok? && Distinct(pool) ==>
              && Distinct(r.value.placed)
              && Distinct(r.value.pool)
              && forall c :: c in r.value.placed ==> c !in r.value.pool
    ensures r.Ok? && Increasing(pool) ==> Increasing(r.value.pool)
  {
    var placed: seq<Cell> := [];
    var rest := pool;
    var i := 0;
    while i < objectCount
      invariant 0 <= i <= Max(0, objectCount)
      invariant i <= |pool|
      invariant DrawsFit(|pool|, draws, i)
      invariant placed == Taken(pool, draws, i)
      invariant rest == PoolAfter(pool, draws, i)
    {
      var index := if i < |draws| then draws[i] else 0;
      var d := RandomPosition(rest, index);
      if d.Err? {
        return Err(PoolExhausted);
      }
      assert d.value.rest == rest[..index] + rest[index + 1..];
      ValidDrawsFit(draws, |pool|, objectCount, i + 1);
      placed := placed + [d.value.cell];
      rest := d.value.rest;
      i := i + 1;
    }
    DrawsPartitionPool(pool, draws, i);
    if Increasing(pool) {
      PoolAfterKeepsOrder(pool, draws, i);
    }
    r := Ok(Placement(placed, rest));
  }

  function Pow2(n: nat): (p: nat)
    ensures p >= 1
  {
    if n == 0 then 1 else 2 * Pow2(n - 1)
  }

  /** The number of enemies on a level, `(int)Mathf.Log(level, 2f)`: the
      whole part of the base-2 logarithm of the level. */
  function EnemyCount(level: int): (n: nat)
    requires level >= 1
    ensures Pow2(n) <= level < Pow2(n + 1)
    decreases level
  {
    if level == 1 then 0 else 1 + EnemyCount(level / 2)
  }

  lemma {:induction false} Pow2Monotone(a: nat, b: nat)
    requires a <= b
    ensures Pow2(a) <= Pow2(b)
    decreases b
  {
    if a < b {
      Pow2Monotone(a, b - 1);
    }
  }

  /** The bracket in `EnemyCount`'s contract pins the count down: it is
      the only `n` with 2^n <= level < 2^(n+1). */
  lemma {:induction false} EnemyCountUnique(level: int, n: nat)
    requires level >= 1
    requires Pow2(n) <= level < Pow2(n + 1)
    ensures EnemyCount(level) == n
  {
    var e := EnemyCount(level);
    if e < n {
      Pow2Monotone(e + 1, n);
    } else if e > n {
      Pow2Monotone(n + 1, e);
    }
  }

  /** Harder levels never have fewer enemies. */
  lemma {:induction false} EnemyCountMonotone(a: int, b: int)
    requires 1 <= a <= b
    ensures EnemyCount(a) <= EnemyCount(b)
  {
    if EnemyCount(a) > EnemyCount(b) {
      Pow2Monotone(EnemyCount(b) + 1, EnemyCount(a));
    }
  }

  /** The first levels: no enemy on level 1, then one more each time the level doubles. */
  lemma EnemyCountSamples()
    ensures EnemyCount(1) == 0 && EnemyCount(2) == 1 && EnemyCount(3) == 1
    ensures EnemyCount(4) == 2 && EnemyCount(8) == 3
  {
  }

  /** The random choices of one `SetupScene`: the wall and food counts, and
      the index of every draw from the pool for walls, food and enemies. */
  datatype Choices = Choices(
    wallCount: int, wallDraws: seq<int>,
    foodCount: int, foodDraws: seq<int>,
    enemyDraws: seq<int>)

  /** Choices `Random.Range` could have made: counts within their ranges and
      every draw within the pool as it stands at that draw. */
  predicate ValidChoices(config: Config, level: int, ch: Choices)
    requires level >= 1
  {
    var size := InteriorSize(config.columns, config.rows);
    var walls := Max(0, ch.wallCount);
    var food := Max(0, ch.foodCount);
    && InCount(config.wallCount.minimum, config.wallCount.maximum, ch.wallCount)
    && InCount(config.foodCount.minimum, config.foodCount.maximum, ch.foodCount)
    && ValidDraws(ch.wallDraws, size, ch.wallCount)
    && ValidDraws(ch.foodDraws, size - walls, ch.foodCount)
    && ValidDraws(ch.enemyDraws, size - walls - food, EnemyCount(level))
  }

  /** The cells the level asks the pool for. */
  function Demand(level: int, ch: Choices): nat
    requires level >= 1
  {
    Max(0, ch.wallCount) + Max(0, ch.foodCount) + EnemyCount(level)
  }

  /** A laid-out level. */
  datatype Layout = Layout(tiles: seq<Tile>, walls: seq<Cell>, food: seq<Cell>, enemies: seq<Cell>, exit: Cell)

  lemma DistinctConcat(a: seq<Cell>, b: seq<Cell>)
    requires Distinct(a) && Distinct(b)
    requires forall c :: c in a ==> c !in b
    ensures Distinct(a + b)
  {
    forall i, j | 0 <= i < j < |a + b| ensures (a + b)[i] != (a + b)[j] {
      if i < |a| && j >= |a| {
        assert (a + b)[i] in a;
        assert (a + b)[j] in b;
      }
    }
  }

  /** What `SetupScene` promises about the board it lays out for `level`
      from the choices `ch`, and about the pool `grid` it draws from. */
  ghost predicate LaidOut(config: Config, level: int, ch: Choices, r: Result<Layout, LayoutError>, grid: seq<Cell>)
    requires level >= 1
  {
    && (forall c :: c in grid <==> Interior(c, config.columns, config.rows))
    && Increasing(grid)
    && (r.Err? <==> Demand(level, ch) > InteriorSize(config.columns, config.rows))
    && (r.Ok? ==> CoversFrame(r.value.tiles, config.columns, config.rows))
    && (r.Ok? ==> |r.value.walls| == Max(0, ch.wallCount))
    && (r.Ok? ==> |r.value.food| == Max(0, ch.foodCount))
    && (r.Ok? ==> |r.value.enemies| == EnemyCount(level))
    && (r.Ok? ==>
          && |r.value.walls| <= |grid| && DrawsFit(|grid|, ch.wallDraws, |r.value.walls|)
          && r.value.walls == Taken(grid, ch.wallDraws, |r.value.walls|))
    && (r.Ok? ==>
          var left := PoolAfter(grid, ch.wallDraws, |r.value.walls|);
          && |r.value.food| <= |left| && DrawsFit(|left|, ch.foodDraws, |r.value.food|)
          && r.value.food == Taken(left, ch.foodDraws, |r.value.food|))
    && (r.Ok? ==>
          var left := PoolAfter(PoolAfter(grid, ch.wallDraws, |r.value.walls|), ch.foodDraws, |r.value.food|);
          && |r.value.enemies| <= |left| && DrawsFit(|left|, ch.enemyDraws, |r.value.enemies|)
          && r.value.enemies == Taken(left, ch.enemyDraws, |r.value.enemies|))
    && (r.Ok? ==> Distinct(r.value.walls + r.value.food + r.value.enemies))
    && (r.Ok? ==> forall c :: c in r.value.walls + r.value.food + r.value.enemies ==> Interior(c, config.columns, config.rows))
    && (r.Ok? ==> r.value.exit == Cell(config.columns - 1, config.rows - 1))
    && (r.Ok? ==> !Interior(r.value.exit, config.columns, config.rows))
    && (r.Ok? ==> r.value.exit !in r.value.walls + r.value.food + r.value.enemies)
  }

  /** `SetupScene(level)`: the frame first, then one fresh pool `grid`
      (the `gridPositions` list) from which walls, food and
      `EnemyCount(level)` enemies are drawn in turn, each kind from what the
      previous kinds left, then the exit at (columns - 1, rows - 1), the
      top-right cell of the board just outside the interior. No two
      placements share a cell, all are interior, the exit is none of them,
      and the level fails exactly when it asks for more cells than the
      interior has. */
  method SetupScene(config: Config, level: int, ch: Choices)
    returns (r: Result<Layout, LayoutError>, grid: seq<Cell>)
    requires level >= 1
    requires ValidChoices(config, level, ch)
    ensures LaidOut(config, level, ch, r, grid)
  {
    var columns, rows := config.columns, config.rows;
    var tiles := BoardSetup(columns, rows);
    grid := InitialiseList(columns, rows);
    var walls := LayoutObjectAtRandom(grid, config.wallCount.minimum, config.wallCount.maximum, ch.wallCount, ch.wallDraws);
    if walls.Err? {
      return Err(PoolExhausted), grid;
    }
    var food := LayoutObjectAtRandom(walls.value.pool, config.foodCount.minimum, config.foodCount.maximum, ch.foodCount, ch.foodDraws);
    if food.Err? {
      return Err(PoolExhausted), grid;
    }
    var enemyCount := EnemyCount(level);
    var enemies := LayoutObjectAtRandom(food.value.pool, enemyCount, enemyCount, enemyCount, ch.enemyDraws);
    if enemies.Err? {
      return Err(PoolExhausted), grid;
    }
    var w, f, e := walls.value.placed, food.value.placed, enemies.value.placed;
    DistinctConcat(w, f);
    DistinctConcat(w + f, e);
    var exit := Cell(columns - 1, rows - 1);
    r := Ok(Layout(tiles, w, f, e, exit));
  }

  /** The default 8 x 8 board never runs out of cells: its 36 interior
      cells take at most 9 walls and 5 food, leaving room for the enemies
      of every level below 2^23. */
  lemma {:induction false} DefaultBoardFits(level: int, ch: Choices)
    requires 1 <= level < Pow2(23)
    requires ValidChoices(Default, level, ch)
    ensures Demand(level, ch) <= InteriorSize(Default.columns, Default.rows)
  {
    if EnemyCount(level) > 22 {
      Pow2Monotone(23, EnemyCount(level));
    }
  }
}

=== FILE: enemy.dfy ===
/** The `Enemy` component: an actor that walks toward the player on every
    other call and hurts the player when it bumps into them. */
module EnemyRules {
  import opened Int32
  import opened Grid
  import opened Wrappers
  import opened MovingObject

  /** `skipMove` is `_skipMove`; `playerDamage` is `_playerDamage`, the food
      the player loses when this enemy bumps into them. */
  datatype Enemy = Enemy(skipMove: bool, playerDamage: int32)

  /** What the engine decides for one call of `MoveEnemy`: where the enemy and
      its target (the player) stand, and how the step would turn out. */
  datatype Situation = Situation(self: Cell, target: Cell, outcome: Outcome)

  /** What one call of `AttemptMove` did. */
  datatype Attempt = Skipped | Attempted(dir: Dir, outcome: Outcome)

  datatype Turn = Turn(enemy: Enemy, attempt: Attempt)

  /** A freshly spawned enemy: `_skipMove` starts false. */
  function Spawn(playerDamage: int32): (e: Enemy)
    ensures !e.skipMove && e.playerDamage == playerDamage
  {
    Enemy(false, playerDamage)
  }

  /** The direction chosen by `MoveEnemy`: vertical toward the target when the
      two stand in the same column, otherwise horizontal toward it. A target
      on the same cell (or below) gives a step down. */
  function ChooseDirection(self: Cell, target: Cell): (d: Dir)
    ensures IsCardinal(d)
    ensures d.x == 0 <==> self.x == target.x
    ensures d.x != 0 ==> (d.x == 1 <==> target.x > self.x)
    ensures d.y != 0 ==> (d.y == 1 <==> target.y > self.y)
  {
    if self.x == target.x then
      Dir(0, if target.y > self.y then 1 else -1)
    else
      Dir(if target.x > self.x then 1 else -1, 0)
  }

  function Abs(k: int): nat {
    if k < 0 then -k else k
  }

  function Distance(a: Cell, b: Cell): nat {
    Abs(a.x - b.x) + Abs(a.y - b.y)
  }

  /** Each step the enemy chooses brings it one cell closer to a target it is
      not already standing on. */
  lemma {:induction false} StepApproachesTarget(self: Cell, target: Cell)
    requires self != target
    ensures Distance(Step(self, ChooseDirection(self, target)), target) == Distance(self, target) - 1
  {
  }

  /** `AttemptMove` override: a skipped call only clears the flag; a real call
      hands the step to the moving object and sets the flag. */
  function AttemptMove(e: Enemy, dir: Dir, outcome: Outcome): (t: Turn)
    ensures t.attempt.Skipped? <==> e.skipMove
    ensures t.attempt.Attempted? ==> t.attempt == Attempted(dir, outcome)
    ensures t.enemy.skipMove == !e.skipMove
    ensures t.enemy.playerDamage == e.playerDamage
  {
    if e.skipMove then
      Turn(e.(skipMove := false), Skipped)
    else
      Turn(e.(skipMove := true), Attempted(dir, outcome))
  }

  /** `MoveEnemy`: choose a direction toward the target and attempt it. */
  function MoveEnemy(e: Enemy, s: Situation): (t: Turn)
    ensures t.attempt.Skipped? <==> e.skipMove
    ensures t.enemy == e.(skipMove := !e.skipMove)
    ensures t.attempt.Attempted? ==> t.attempt.dir == ChooseDirection(s.self, s.target)
    ensures t.attempt.Attempted? ==> t.attempt.outcome == s.outcome
    ensures t.attempt.Attempted? ==> IsCardinal(t.attempt.dir)
  {
    AttemptMove(e, ChooseDirection(s.self, s.target), s.outcome)
  }

  /** `OnCantMove`: the food the player loses from this enemy's attempt —
      `playerDamage` when the step was blocked by the player, none otherwise. */
  function DamageDealt(e: Enemy, a: Attempt): (r: Option<int32>)
    ensures r.Some? <==> a.Attempted? && a.outcome == BlockedByTarget
    ensures r.Some? ==> r.value == e.playerDamage
  {
    if a.Attempted? && a.outcome == BlockedByTarget then Some(e.playerDamage) else None
  }

  /** The attempts made by an enemy over a series of calls. */
  function Run(e: Enemy, situations: seq<Situation>): (attempts: seq<Attempt>)
    ensures |attempts| == |situations|
    decreases |situations|
  {
    if situations == [] then []
    else
      var t := MoveEnemy(e, situations[0]);
      [t.attempt] + Run(t.enemy, situations[1..])
  }

  /** Enemies act on alternating calls: starting from `e`, call `i` attempts a
      move exactly when `i` is even and `e` was not skipping, or `i` is odd and
      it was. A fresh enemy therefore moves on its first call. */
  lemma {:induction false} ActsOnAlternateCalls(e: Enemy, situations: seq<Situation>, i: nat)
    requires i < |situations|
    ensures Run(e, situations)[i].Attempted? <==> ((i % 2 == 0) != e.skipMove)
    decreases i
  {
    if i > 0 {
      var t := MoveEnemy(e, situations[0]);
      ActsOnAlternateCalls(t.enemy, situations[1..], i - 1);
      assert Run(e, situations)[i] == Run(t.enemy, situations[1..])[i - 1];
    }
  }
}

=== FILE: food.dfy ===
/** The `Food` class: the player's food points, an `int` with no clamping. */
module FoodRules {
  import opened Int32

  datatype Food = Food(amount: int32)

  /** `new Food(initialValue)`. */
  function New(initialValue: int32): (f: Food)
    ensures f.amount == initialValue
  {
    Food(initialValue)
  }

  /** `Add(value)`: the amount grows by exactly `value` (wrapping like a C# `int`). */
  function Add(f: Food, value: int32): (r: Food)
    ensures InRange(f.amount + value) ==> r.amount == f.amount + value
    ensures Congruent(f.amount + value, r.amount)
  {
    Food(Int32.Add(f.amount, value))
  }

  /** `Remove(value)`: the amount shrinks by exactly `value`; nothing stops it
      from going to zero or below. */
  function Remove(f: Food, value: int32): (r: Food)
    ensures InRange(f.amount - value) ==> r.amount == f.amount - value
    ensures Congruent(f.amount - value, r.amount)
  {
    Food(Sub(f.amount, value))
  }

  lemma {:induction false} AddThenRemove(f: Food, value: int32)
    ensures Remove(Add(f, value), value) == f
  {
    AddThenSub(f.amount, value);
  }

  lemma {:induction false} RemoveThenAdd(f: Food, value: int32)
    ensures Add(Remove(f, value), value) == f
  {
    SubThenAdd(f.amount, value);
  }

  /** The food left is never clamped: removing more than there is goes negative. */
  lemma {:induction false} RemoveCanGoNegative(f: Food, value: int32)
    requires 0 <= f.amount < value
    ensures Remove(f, value).amount < 0
  {
    assert InRange(value);
    assert InRange(f.amount - value);
  }

  function Sum(values: seq<int32>): int {
    if values == [] then 0 else Sum(values[..|values| - 1]) + values[|values| - 1]
  }

  /** The food after a series of `Remove` calls, applied in order. */
  function RemoveAll(f: Food, values: seq<int32>): Food
  {
    if values == [] then f else Remove(RemoveAll(f, values[..|values| - 1]), values[|values| - 1])
  }

  lemma RemoveAllSnoc(f: Food, values: seq<int32>, value: int32)
    ensures RemoveAll(f, values + [value]) == Remove(RemoveAll(f, values), value)
  {
    assert (values + [value])[..|values|] == values;
  }

  /** A series of removals takes away their total, wrapped once at the end. */
  lemma {:induction false} RemoveAllTotal(f: Food, values: seq<int32>)
    ensures RemoveAll(f, values).amount == Wrap(f.amount - Sum(values))
  {
    if values != [] {
      var init := values[..|values| - 1];
      var last := values[|values| - 1];
      RemoveAllTotal(f, init);
      var before: int := RemoveAll(f, init).amount;
      CongruentShift(f.amount - Sum(init), before, last);
      CongruentTrans(f.amount - Sum(values), before - last, RemoveAll(f, values).amount);
      WrapUnique(f.amount - Sum(values), RemoveAll(f, values).amount);
    }
  }
}

=== FILE: game.dfy ===
/**
 `GameManager`: the level counter, the list of enemies, and the three flags
 `_playersTurn`, `_enemiesMoving` and `_doingSetup` that decide whose turn
 it is. Real-time waits (`Invoke` after `LevelStartDelay`, `WaitForSeconds`
 of `TurnDelay` and of each enemy's `_moveTime`) become abstract delay
 events in a trace; the text and image of the level card are not modelled.
 */
module TurnManager {
  import opened Int32
  import opened Grid
  import opened Wrappers
  import opened MovingObject
  import FoodRules
  import WallRules
  import EnemyRules
  import PlayerRules
  import BoardLayout

  /** The manager's state; `enabled` is the component's enabled flag, which
      `GameOver` clears (Unity stops calling `Update` on a disabled component). */
  datatype Manager = Manager(
    level: nat,
    playersTurn: bool,
    enemiesMoving: bool,
    doingSetup: bool,
    enemies: seq<EnemyRules.Enemy>,
    enabled: bool)

  /** The field initialisers, before `Awake` runs. */
  const Declared: Manager := Manager(1, true, false, true, [], true)

  /** What `InitGame` does to the manager before laying out the board: the
      level card goes up and the enemy list is emptied. */
  function BeginLevel(m: Manager): (r: Manager)
    ensures r.doingSetup && r.enemies == []
    ensures r.level == m.level && r.playersTurn == m.playersTurn
    ensures r.enemiesMoving == m.enemiesMoving && r.enabled == m.enabled
  {
    m.(doingSetup := true, enemies := [])
  }

  /** `InitGame`: start the setup of the current level and lay out its board. */
  method InitGame(m: Manager, board: BoardLayout.Config, ch: BoardLayout.Choices)
    returns (r: Manager, layout: Result<BoardLayout.Layout, BoardLayout.LayoutError>, grid: seq<Cell>)
    requires m.level >= 1
    requires BoardLayout.ValidChoices(board, m.level, ch)
    ensures r == BeginLevel(m)
    ensures BoardLayout.LaidOut(board, m.level, ch, layout, grid)
    ensures layout.Err? <==> BoardLayout.Demand(m.level, ch) > BoardLayout.InteriorSize(board.columns, board.rows)
    ensures layout.Ok? ==> |layout.value.enemies| == BoardLayout.EnemyCount(m.level)
    ensures layout.Ok? ==> Distinct(layout.value.walls + layout.value.food + layout.value.enemies)
  {
    r := BeginLevel(m);
    layout, grid := BoardLayout.SetupScene(board, m.level, ch);
  }

  /** `Awake` of the first manager: level 1, the player's turn flag set
      while the level card is up, and the first board laid out. */
  method Awake(board: BoardLayout.Config, ch: BoardLayout.Choices)
    returns (r: Manager, layout: Result<BoardLayout.Layout, BoardLayout.LayoutError>, grid: seq<Cell>)
    requires BoardLayout.ValidChoices(board, 1, ch)
    ensures BoardLayout.LaidOut(board, 1, ch, layout, grid)
    ensures r.level == 1 && r.playersTurn && !r.enemiesMoving && r.doingSetup
    ensures r.enemies == [] && r.enabled
    ensures layout.Ok? ==> layout.value.enemies == []
  {
    r, layout, grid := InitGame(Declared, board, ch);
  }

  /** `OnSceneLoaded`: the level goes up by exactly one before `InitGame`
      lays out the new level, so its enemy count follows the new level. */
  method OnSceneLoaded(m: Manager, board: BoardLayout.Config, ch: BoardLayout.Choices)
    returns (r: Manager, layout: Result<BoardLayout.Layout, BoardLayout.LayoutError>, grid: seq<Cell>)
    requires BoardLayout.ValidChoices(board, m.level + 1, ch)
    ensures BoardLayout.LaidOut(board, m.level + 1, ch, layout, grid)
    ensures r.level == m.level + 1
    ensures r.doingSetup && r.enemies == []
    ensures r.playersTurn == m.playersTurn && r.enemiesMoving == m.enemiesMoving && r.enabled == m.enabled
    ensures layout.Ok? ==> |layout.value.enemies| == BoardLayout.EnemyCount(m.level + 1)
  {
    r, layout, grid := InitGame(m.(level := m.level + 1), board, ch);
  }

  /** `HideLevelImage`, run `LevelStartDelay` after `InitGame`: setup is over. */
  function HideLevelImage(m: Manager): (r: Manager)
    ensures !r.doingSetup
    ensures r.level == m.level && r.playersTurn == m.playersTurn && r.enemiesMoving == m.enemiesMoving
    ensures r.enemies == m.enemies && r.enabled == m.enabled
  {
    m.(doingSetup := false)
  }

  /** The guard of `Update`: an enemy phase may start only on an enabled
      manager when none of the three flags is set. */
  predicate CanStartPhase(m: Manager) {
    m.enabled && !m.playersTurn && !m.enemiesMoving && !m.doingSetup
  }

  /** One frame of `Update`. When the guard passes, `MoveEnemies` starts and
      runs up to its first wait, having set `_enemiesMoving`; so the frames
      that follow, while the phase waits, start nothing. */
  function Update(m: Manager): (r: Manager)
    ensures CanStartPhase(m) ==> r == m.(enemiesMoving := true)
    ensures !CanStartPhase(m) ==> r == m
    ensures !CanStartPhase(r)
  {
    if CanStartPhase(m) then m.(enemiesMoving := true) else m
  }

  /** A phase never overlaps another: a second frame changes nothing. */
  lemma {:induction false} NoSecondPhase(m: Manager)
    ensures Update(Update(m)) == Update(m)
  {
  }

  /** `AddEnemyToList`: append at the end; the enemies already there keep
      their places. */
  function AddEnemyToList(m: Manager, e: EnemyRules.Enemy): (r: Manager)
    ensures |r.enemies| == |m.enemies| + 1
    ensures r.enemies[..|m.enemies|] == m.enemies && r.enemies[|m.enemies|] == e
    ensures r.level == m.level && r.playersTurn == m.playersTurn && r.enemiesMoving == m.enemiesMoving
    ensures r.doingSetup == m.doingSetup && r.enabled == m.enabled
  {
    m.(enemies := m.enemies + [e])
  }

  /** Every spawned enemy calls `AddEnemyToList` once, from its `Start`. */
  function RegisterAll(m: Manager, spawned: seq<EnemyRules.Enemy>): Manager
    decreases |spawned|
  {
    if spawned == [] then m
    else RegisterAll(AddEnemyToList(m, spawned[0]), spawned[1..])
  }

  /** After a level begins and its enemies start, the list holds exactly
      those enemies, each once, in the order they started. */
  lemma {:induction false} RegisterAllAppends(m: Manager, spawned: seq<EnemyRules.Enemy>)
    ensures RegisterAll(m, spawned).enemies == m.enemies + spawned
    ensures RegisterAll(m, spawned) == m.(enemies := m.enemies + spawned)
    decreases |spawned|
  {
    if spawned != [] {
      RegisterAllAppends(AddEnemyToList(m, spawned[0]), spawned[1..]);
      assert m.enemies + [spawned[0]] + spawned[1..] == m.enemies + spawned;
    }
  }

  /** `GameOver`: the manager switches itself off. */
  function GameOver(m: Manager): (r: Manager)
    ensures !r.enabled && !CanStartPhase(r)
    ensures r.level == m.level && r.playersTurn == m.playersTurn && r.enemiesMoving == m.enemiesMoving
    ensures r.doingSetup == m.doingSetup && r.enemies == m.enemies
  {
    m.(enabled := false)
  }

  /** The manager-side events of the game. */
  datatype Event =
    | SceneLoaded                          // `OnSceneLoaded`, then `InitGame`
    | LevelImageHidden                     // `HideLevelImage`
    | Frame                                // `Update`
    | EnemyStarted(enemy: EnemyRules.Enemy)  // `Enemy.Start`
    | PlayerStepped(starved: bool)         // end of `Player.AttemptMove`
    | PhaseEnded(enemies: seq<EnemyRules.Enemy>, starved: bool)  // end of `MoveEnemies`
    | Starved                              // `GameOver` from any other caller

  /** The manager after one event. */
  function Apply(m: Manager, ev: Event): Manager {
    match ev
    case SceneLoaded => BeginLevel(m.(level := m.level + 1))
    case LevelImageHidden => HideLevelImage(m)
    case Frame => Update(m)
    case EnemyStarted(e) => AddEnemyToList(m, e)
    case PlayerStepped(starved) =>
      var n := m.(playersTurn := false);
      if starved then GameOver(n) else n
    case PhaseEnded(enemies, starved) =>
      var n := m.(enemies := enemies, playersTurn := true, enemiesMoving := false);
      if starved then GameOver(n) else n
    case Starved => GameOver(m)
  }

  /** `HideLevelImage` is the only event that ends the setup, and a scene
      load is the only one that starts it. */
  lemma {:induction false} SetupEndsOnlyByHiding(m: Manager, ev: Event)
    ensures m.doingSetup && !Apply(m, ev).doingSetup ==> ev == LevelImageHidden
    ensures !m.doingSetup && Apply(m, ev).doingSetup ==> ev == SceneLoaded
  {
  }

  function Run(m: Manager, events: seq<Event>): Manager
    decreases |events|
  {
    if events == [] then m else Run(Apply(m, events[0]), events[1..])
  }

  function CountLoads(events: seq<Event>): nat
    decreases |events|
  {
    if events == [] then 0 else (if events[0] == SceneLoaded then 1 else 0) + CountLoads(events[1..])
  }

  /** The level counter moves only on scene loads, by one each time. */
  lemma {:induction false} LevelCountsLoads(m: Manager, events: seq<Event>)
    ensures Run(m, events).level == m.level + CountLoads(events)
    decreases |events|
  {
    if events != [] {
      LevelCountsLoads(Apply(m, events[0]), events[1..]);
    }
  }

  /** The player's turn and a running enemy phase never coincide. */
  predicate TurnsExclusive(m: Manager) {
    !(m.playersTurn && m.enemiesMoving)
  }

  lemma {:induction false} TurnsStayExclusive(m: Manager, events: seq<Event>)
    requires TurnsExclusive(m)
    ensures TurnsExclusive(Run(m, events))
    decreases |events|
  {
    if events != [] {
      TurnsStayExclusive(Apply(m, events[0]), events[1..]);
    }
  }

  /** After `GameOver` the manager stays off: whatever happens next, no
      enemy phase starts again. */
  lemma {:induction false} GameOverIsFinal(m: Manager, events: seq<Event>)
    requires !m.enabled
    ensures !Run(m, events).enabled
    ensures !CanStartPhase(Run(m, events))
    decreases |events|
  {
    if events != [] {
      GameOverIsFinal(Apply(m, events[0]), events[1..]);
    }
  }

  /** Event sequences a running game can produce: `MoveEnemies` ends only
      after it started, so `PhaseEnded` comes only while a phase is running. */
  predicate Feasible(m: Manager, events: seq<Event>)
    decreases |events|
  {
    events == [] ||
    ((events[0].PhaseEnded? ==> m.enemiesMoving) && Feasible(Apply(m, events[0]), events[1..]))
  }

  /** Once the manager is off with neither the player's turn nor an enemy
      phase running, the turn never comes back: `Update` starts no phase,
      and only the end of a phase sets `_playersTurn`. */
  lemma {:induction false} TurnNeverReturns(m: Manager, events: seq<Event>)
    requires !m.enabled && !m.playersTurn && !m.enemiesMoving
    requires Feasible(m, events)
    ensures var r := Run(m, events);
              !r.enabled && !r.playersTurn && !r.enemiesMoving
    decreases |events|
  {
    if events != [] {
      TurnNeverReturns(Apply(m, events[0]), events[1..]);
    }
  }

  /** The manager, player and the wall in the player's way after a frame of `Player.Update`. */
  datatype PlayerFrame = PlayerFrame(manager: Manager, player: PlayerRules.Player, wall: WallRules.Wall)

  /** `Player.Update` against the manager's flags as the code is written:
      only `_playersTurn` is consulted. An attempted step costs one food,
      hands the turn over and signals game over when the food runs out. */
  function PlayerUpdateAsWritten(m: Manager, p: PlayerRules.Player, input: Dir, wall: WallRules.Wall, outcome: Outcome)
    : (r: PlayerFrame)
    ensures !(m.playersTurn && p.enabled && input != Zero) ==> r == PlayerFrame(m, p, wall)
    ensures m.playersTurn && p.enabled && input != Zero ==>
              && !r.manager.playersTurn
              && r.manager.doingSetup == m.doingSetup
              && Congruent(p.food.amount - 1, r.player.food.amount)
              && (InRange(p.food.amount - 1) ==> r.player.food.amount == p.food.amount - 1)
              && (r.manager.enabled <==> m.enabled && r.player.food.amount > 0)
              && r.manager == Apply(m, PlayerStepped(r.player.food.amount <= 0))
              && r.player.enabled == p.enabled
              && r.wall == (if outcome == BlockedByTarget then WallRules.DamageWall(wall, PlayerRules.WallDamage) else wall)
  {
    var f := PlayerRules.Update(p, m.playersTurn, input, wall, outcome);
    if f.moved then PlayerFrame(Apply(m, PlayerStepped(f.gameOver)), f.player, f.wall)
    else PlayerFrame(m, p, wall)
  }

  /** As written, the player moves while the level card is still up: the
      state `Awake` and `OnSceneLoaded` leave (player's turn and setup both
      set) accepts a step, which costs food and hands the turn to enemies
      that cannot start before `HideLevelImage`. */
  lemma PlayerStepsDuringSetup(m: Manager, p: PlayerRules.Player, input: Dir, wall: WallRules.Wall, outcome: Outcome)
    requires m.doingSetup && m.playersTurn
    requires p.enabled && input != Zero
    ensures var r := PlayerUpdateAsWritten(m, p, input, wall, outcome);
              && r.manager.doingSetup
              && !r.manager.playersTurn
              && Congruent(p.food.amount - 1, r.player.food.amount)
  {
  }

  /** A player who starves on their own step has already handed the turn
      over, and no phase is running: play stops (see `TurnNeverReturns`). */
  lemma SelfStarveStopsPlay(m: Manager, p: PlayerRules.Player, input: Dir, wall: WallRules.Wall, outcome: Outcome)
    requires m.playersTurn && TurnsExclusive(m)
    requires p.enabled && input != Zero
    requires Min < p.food.amount <= 1
    ensures var r := PlayerUpdateAsWritten(m, p, input, wall, outcome);
              !r.manager.enabled && !r.manager.playersTurn && !r.manager.enemiesMoving
  {
  }

  /** `Player.Update` with the guard the comment on `_doingSetup` asks for:
      no step while the level card is up. */
  function PlayerUpdate(m: Manager, p: PlayerRules.Player, input: Dir, wall: WallRules.Wall, outcome: Outcome)
    : (r: PlayerFrame)
    ensures !(m.playersTurn && !m.doingSetup && p.enabled && input != Zero) ==> r == PlayerFrame(m, p, wall)
    ensures m.playersTurn && !m.doingSetup && p.enabled && input != Zero ==>
              && !r.manager.playersTurn
              && !r.manager.doingSetup
              && Congruent(p.food.amount - 1, r.player.food.amount)
              && (InRange(p.food.amount - 1) ==> r.player.food.amount == p.food.amount - 1)
              && (r.manager.enabled <==> m.enabled && r.player.food.amount > 0)
              && r.manager == Apply(m, PlayerStepped(r.player.food.amount <= 0))
              && r.player.enabled == p.enabled
              && r.wall == (if outcome == BlockedByTarget then WallRules.DamageWall(wall, PlayerRules.WallDamage) else wall)
  {
    if m.doingSetup then PlayerFrame(m, p, wall)
    else PlayerUpdateAsWritten(m, p, input, wall, outcome)
  }

  /** With the guard, no input is accepted while `_doingSetup` is set. */
  lemma NoStepDuringSetup(m: Manager, p: PlayerRules.Player, input: Dir, wall: WallRules.Wall, outcome: Outcome)
    requires m.doingSetup
    ensures PlayerUpdate(m, p, input, wall, outcome) == PlayerFrame(m, p, wall)
  {
  }

  /** `GameOver` switches the manager off but neither the player nor the
      turn flag: when a phase that was already running hands the turn back,
      one more step is accepted and costs food. */
  lemma PlayerStepsAfterGameOver(m: Manager, p: PlayerRules.Player, input: Dir, wall: WallRules.Wall, outcome: Outcome)
    requires !m.enabled && m.playersTurn
    requires p.enabled && input != Zero
    ensures var r := PlayerUpdateAsWritten(m, p, input, wall, outcome);
              && !r.manager.enabled
              && Congruent(p.food.amount - 1, r.player.food.amount)
  {
  }

  /** The waits of an enemy phase. */
  datatype Delay = TurnDelay | MoveTime(enemy: nat)

  /** What an enemy phase does, in order: wait, or call `MoveEnemy` on the
      enemy at an index of the list. */
  datatype PhaseEvent = Wait(delay: Delay) | Act(enemy: nat, attempt: EnemyRules.Attempt)

  /** The damage the player takes from one enemy's call: its `playerDamage`
      when its step was blocked by the player, nothing otherwise. */
  function HitOf(e: EnemyRules.Enemy, s: EnemyRules.Situation): seq<int32> {
    match EnemyRules.DamageDealt(e, EnemyRules.MoveEnemy(e, s).attempt)
    case Some(d) => [d]
    case None => []
  }

  /** The damage the player takes from the enemies, in list order. */
  function Hits(enemies: seq<EnemyRules.Enemy>, situations: seq<EnemyRules.Situation>): seq<int32>
    requires |situations| == |enemies|
  {
    if enemies == [] then []
    else
      var n := |enemies| - 1;
      Hits(enemies[..n], situations[..n]) + HitOf(enemies[n], situations[n])
  }

  lemma HitsExtend(enemies: seq<EnemyRules.Enemy>, situations: seq<EnemyRules.Situation>, i: nat)
    requires |situations| == |enemies| && i < |enemies|
    ensures Hits(enemies[..i + 1], situations[..i + 1])
         == Hits(enemies[..i], situations[..i]) + HitOf(enemies[i], situations[i])
  {
    assert enemies[..i + 1][..i] == enemies[..i];
    assert situations[..i + 1][..i] == situations[..i];
  }

  /** Whether one of the game-over checks after the hits finds the food gone. */
  function Starves(food: FoodRules.Food, hits: seq<int32>): bool
  {
    if hits == [] then false
    else Starves(food, hits[..|hits| - 1]) || FoodRules.RemoveAll(food, hits).amount <= 0
  }

  /** `Starves` holds exactly when the food is gone after some prefix of the hits. */
  lemma {:induction false} StarvesAfterSomeHit(food: FoodRules.Food, hits: seq<int32>)
    ensures Starves(food, hits) <==>
              exists k :: 1 <= k <= |hits| && FoodRules.RemoveAll(food, hits[..k]).amount <= 0
  {
    if hits != [] {
      var init := hits[..|hits| - 1];
      StarvesAfterSomeHit(food, init);
      assert hits[..|hits|] == hits;
      if Starves(food, init) {
        var k :| 1 <= k <= |init| && FoodRules.RemoveAll(food, init[..k]).amount <= 0;
        assert init[..k] == hits[..k];
      }
      if k :| 1 <= k <= |hits| && FoodRules.RemoveAll(food, hits[..k]).amount <= 0 {
        if k < |hits| {
          assert init[..k] == hits[..k];
        }
      }
    }
  }

  /** The player after the hits of one enemy's call, and whether the
      game-over check after the hit found no food. */
  function TakeHit(q: PlayerRules.Player, hit: seq<int32>): PlayerRules.Loss
    requires |hit| <= 1
  {
    if hit == [] then PlayerRules.Loss(q, false) else PlayerRules.LoseFood(q, hit[0])
  }

  lemma TakeHitAccumulates(f: FoodRules.Food, before: seq<int32>, q: PlayerRules.Player, starved: bool, hit: seq<int32>)
    requires |hit| <= 1
    requires q.food == FoodRules.RemoveAll(f, before)
    requires starved == Starves(f, before)
    ensures TakeHit(q, hit).player.food == FoodRules.RemoveAll(f, before + hit)
    ensures TakeHit(q, hit).player.enabled == q.enabled
    ensures (starved || TakeHit(q, hit).gameOver) == Starves(f, before + hit)
  {
    if hit == [] {
      assert before + hit == before;
    } else {
      assert hit == [hit[0]];
      FoodRules.RemoveAllSnoc(f, before, hit[0]);
      assert (before + hit)[..|before|] == before;
    }
  }

  /** The first `count` enemies each appear as one `MoveEnemy` call followed by
      a wait of their `_moveTime`, in list order, and nothing else is traced. */
  predicate CallsInOrder(trace: seq<PhaseEvent>, enemies: seq<EnemyRules.Enemy>, situations: seq<EnemyRules.Situation>, count: nat)
    requires |situations| == |enemies| && count <= |enemies|
  {
    && |trace| == 2 * count
    && forall i :: 0 <= i < count ==>
         && trace[2 * i] == Act(i, EnemyRules.MoveEnemy(enemies[i], situations[i]).attempt)
         && trace[2 * i + 1] == Wait(MoveTime(i))
  }

  lemma CallsInOrderExtend(trace: seq<PhaseEvent>, enemies: seq<EnemyRules.Enemy>, situations: seq<EnemyRules.Situation>, count: nat)
    requires |situations| == |enemies| && count < |enemies|
    requires CallsInOrder(trace, enemies, situations, count)
    ensures CallsInOrder(
              trace + [Act(count, EnemyRules.MoveEnemy(enemies[count], situations[count]).attempt), Wait(MoveTime(count))],
              enemies, situations, count + 1)
  {
  }

  /** The first `count` enemies of `moved` have made their call; the rest
      are as listed. */
  predicate MovedUpTo(enemies: seq<EnemyRules.Enemy>, situations: seq<EnemyRules.Situation>, count: nat, moved: seq<EnemyRules.Enemy>)
    requires |situations| == |enemies| && count <= |enemies|
  {
    && |moved| == |enemies|
    && (forall j :: 0 <= j < count ==> moved[j] == EnemyRules.MoveEnemy(enemies[j], situations[j]).enemy)
    && (forall j :: count <= j < |enemies| ==> moved[j] == enemies[j])
  }

  lemma MovedUpToExtend(enemies: seq<EnemyRules.Enemy>, situations: seq<EnemyRules.Situation>, count: nat, moved: seq<EnemyRules.Enemy>)
    requires |situations| == |enemies| && count < |enemies|
    requires MovedUpTo(enemies, situations, count, moved)
    ensures MovedUpTo(enemies, situations, count + 1,
                      moved[count := EnemyRules.MoveEnemy(enemies[count], situations[count]).enemy])
  {
  }

  /** The state of the `MoveEnemies` loop after the first `count` enemies:
      they have moved, in order, and the player has taken their hits. */
  predicate Progress(
    enemies: seq<EnemyRules.Enemy>, p: PlayerRules.Player, situations: seq<EnemyRules.Situation>, count: nat,
    moved: seq<EnemyRules.Enemy>, q: PlayerRules.Player, starved: bool, trace: seq<PhaseEvent>)
    requires |situations| == |enemies| && count <= |enemies|
  {
    && MovedUpTo(enemies, situations, count, moved)
    && CallsInOrder(trace, enemies, situations, count)
    && q.enabled == p.enabled
    && q.food == FoodRules.RemoveAll(p.food, Hits(enemies[..count], situations[..count]))
    && starved == Starves(p.food, Hits(enemies[..count], situations[..count]))
  }

  /** One more enemy's call keeps the loop state. */
  lemma ProgressStep(
    enemies: seq<EnemyRules.Enemy>, p: PlayerRules.Player, situations: seq<EnemyRules.Situation>, count: nat,
    moved: seq<EnemyRules.Enemy>, q: PlayerRules.Player, starved: bool, trace: seq<PhaseEvent>)
    requires |situations| == |enemies| && count < |enemies|
    requires Progress(enemies, p, situations, count, moved, q, starved, trace)
    ensures
      var t := EnemyRules.MoveEnemy(enemies[count], situations[count]);
      var loss := TakeHit(q, HitOf(enemies[count], situations[count]));
      Progress(enemies, p, situations, count + 1,
               moved[count := t.enemy], loss.player, starved || loss.gameOver,
               trace + [Act(count, t.attempt), Wait(MoveTime(count))])
  {
    var t := EnemyRules.MoveEnemy(enemies[count], situations[count]);
    var hit := HitOf(enemies[count], situations[count]);
    MovedUpToExtend(enemies, situations, count, moved);
    CallsInOrderExtend(trace, enemies, situations, count);
    HitsExtend(enemies, situations, count);
    TakeHitAccumulates(p.food, Hits(enemies[..count], situations[..count]), q, starved, hit);
  }

  /** The loop of `MoveEnemies`: every enemy in list order makes one call
      of `MoveEnemy`, followed by a wait of its `_moveTime`. */
  method MoveEach(enemies: seq<EnemyRules.Enemy>, p: PlayerRules.Player, situations: seq<EnemyRules.Situation>)
    returns (moved: seq<EnemyRules.Enemy>, q: PlayerRules.Player, starved: bool, trace: seq<PhaseEvent>)
    requires |situations| == |enemies|
    ensures CallsInOrder(trace, enemies, situations, |enemies|)
    ensures |moved| == |enemies|
    ensures forall i :: 0 <= i < |enemies| ==> moved[i] == EnemyRules.MoveEnemy(enemies[i], situations[i]).enemy
    ensures q.enabled == p.enabled
    ensures q.food == FoodRules.RemoveAll(p.food, Hits(enemies, situations))
    ensures starved == Starves(p.food, Hits(enemies, situations))
  {
    var n := |enemies|;
    moved := enemies;
    q := p;
    starved := false;
    trace := [];
    var i := 0;
    assert enemies[..0] == [] && situations[..0] == [];
    while i < n
      invariant 0 <= i <= n
      invariant Progress(enemies, p, situations, i, moved, q, starved, trace)
    {
      ProgressStep(enemies, p, situations, i, moved, q, starved, trace);
      var t := EnemyRules.MoveEnemy(enemies[i], situations[i]);
      var loss := TakeHit(q, HitOf(enemies[i], situations[i]));
      moved := moved[i := t.enemy];
      trace := trace + [Act(i, t.attempt), Wait(MoveTime(i))];
      q := loss.player;
      starved := starved || loss.gameOver;
      i := i + 1;
    }
    assert enemies[..n] == enemies && situations[..n] == situations;
  }

  /** The body of the `MoveEnemies` coroutine after `Update` started it:
      one `TurnDelay`, a second one only when there are no enemies, then for
      each enemy in list order one `MoveEnemy` call followed by a wait of its
      `_moveTime`; finally the turn goes back to the player. Every enemy
      toggles its skip flag; the player loses the damage of every enemy that
      bumped into them, and the manager is switched off if a game-over check
      after one of those hits finds no food. */
  method MoveEnemies(m: Manager, p: PlayerRules.Player, situations: seq<EnemyRules.Situation>)
    returns (r: Manager, q: PlayerRules.Player, trace: seq<PhaseEvent>)
    requires m.enemiesMoving
    requires |situations| == |m.enemies|
    ensures m.enemies == [] ==> trace == [Wait(TurnDelay), Wait(TurnDelay)]
    ensures m.enemies != [] ==> |trace| == 1 + 2 * |m.enemies| && trace[0] == Wait(TurnDelay)
    ensures forall i :: 0 <= i < |m.enemies| ==>
              && trace[1 + 2 * i] == Act(i, EnemyRules.MoveEnemy(m.enemies[i], situations[i]).attempt)
              && trace[2 + 2 * i] == Wait(MoveTime(i))
    ensures |r.enemies| == |m.enemies|
    ensures forall i :: 0 <= i < |m.enemies| ==>
              && r.enemies[i].skipMove == !m.enemies[i].skipMove
              && r.enemies[i].playerDamage == m.enemies[i].playerDamage
    ensures r.playersTurn && !r.enemiesMoving
    ensures r.level == m.level && r.doingSetup == m.doingSetup
    ensures q.enabled == p.enabled
    ensures q.food == FoodRules.RemoveAll(p.food, Hits(m.enemies, situations))
    ensures r.enabled <==> m.enabled && !Starves(p.food, Hits(m.enemies, situations))
    ensures r == Apply(m, PhaseEnded(r.enemies, Starves(p.food, Hits(m.enemies, situations))))
  {
    trace := [Wait(TurnDelay)];
    if |m.enemies| == 0 {
      trace := trace + [Wait(TurnDelay)];
    }
    var moved, starved, acts;
    moved, q, starved, acts := MoveEach(m.enemies, p, situations);
    trace := trace + acts;
    r := Apply(m, PhaseEnded(moved, starved));
  }
}

=== FILE: grid.dfy ===
/** Integer positions and unit steps on the tile grid. Unity stores them as
    `Vector3`/`Vector2Int`; every position the game produces lies on integer
    coordinates, so integers are used throughout. */
module Grid {

  datatype Cell = Cell(x: int, y: int)

  /** A step direction, as passed to `AttemptMove(xDir, yDir)`. */
  datatype Dir = Dir(x: int, y: int)

  const Zero: Dir := Dir(0, 0)

  predicate IsUnitComponent(k: int) {
    k == -1 || k == 0 || k == 1
  }

  /** Components in {-1, 0, 1}, at most one of them non-zero. */
  predicate AtMostOneAxis(d: Dir) {
    IsUnitComponent(d.x) && IsUnitComponent(d.y) && (d.x == 0 || d.y == 0)
  }

  /** One of the four cardinal unit steps. */
  predicate IsCardinal(d: Dir) {
    AtMostOneAxis(d) && d != Zero
  }

  function Step(c: Cell, d: Dir): Cell {
    Cell(c.x + d.x, c.y + d.y)
  }

  /** No element occurs twice. */
  predicate Distinct<T(==)>(s: seq<T>) {
    forall i, j :: 0 <= i < j < |s| ==> s[i] != s[j]
  }
}

=== FILE: int32.dfy ===
/**
 C#'s `int` is a 32-bit two's-complement integer and, outside a `checked`
 context, `+=` and `-=` wrap around silently. This module makes that
 wrap-around explicit so that the counters of the game (food points, wall
 hit points) can be modelled with the width they really have.
 */
module Int32 {

  const Modulus: int := 0x1_0000_0000
  const Min: int := -0x8000_0000
  const Max: int := 0x7fff_ffff

  predicate InRange(x: int) {
    Min <= x <= Max
  }

  type int32 = x: int | InRange(x)

  /** Two integers are congruent when they denote the same 32-bit pattern. */
  predicate Congruent(x: int, y: int) {
    (x - y) % Modulus == 0
  }

  /** The value a C# `int` holds after an unchecked operation whose exact result is `x`. */
  function Wrap(x: int): (r: int32)
    ensures InRange(x) ==> r == x
    ensures Congruent(x, r)
  {
    (x - Min) % Modulus + Min
  }

  /** There is exactly one 32-bit value in each congruence class. */
  lemma WrapUnique(x: int, r: int)
    requires InRange(r)
    requires Congruent(x, r)
    ensures r == Wrap(x)
  {
    var w := Wrap(x);
    var k := (x - r) / Modulus;
    var j := (x - w) / Modulus;
    assert x - r == k * Modulus;
    assert x - w == j * Modulus;
    assert w - r == (k - j) * Modulus;
  }

  /** Congruence is transitive. */
  lemma CongruentTrans(x: int, y: int, z: int)
    requires Congruent(x, y) && Congruent(y, z)
    ensures Congruent(x, z)
  {
    var k := (x - y) / Modulus;
    var j := (y - z) / Modulus;
    assert x - y == k * Modulus;
    assert y - z == j * Modulus;
    assert x - z == (k + j) * Modulus;
  }

  /** Subtracting the same amount from both sides keeps them congruent. */
  lemma CongruentShift(x: int, y: int, d: int)
    requires Congruent(x, y)
    ensures Congruent(x - d, y - d)
  {
    assert (x - d) - (y - d) == x - y;
  }

  /** Unchecked `a + b`. */
  function Add(a: int32, b: int32): (r: int32)
    ensures InRange(a + b) ==> r == a + b
    ensures Congruent(a + b, r)
  {
    Wrap(a + b)
  }

  /** Unchecked `a - b`. */
  function Sub(a: int32, b: int32): (r: int32)
    ensures InRange(a - b) ==> r == a - b
    ensures Congruent(a - b, r)
  {
    Wrap(a - b)
  }

  /** Subtracting what was added gives back the original value, overflow or not. */
  lemma {:induction false} AddThenSub(a: int32, b: int32)
    ensures Sub(Add(a, b), b) == a
  {
    var s := Add(a, b);
    assert Congruent(s - b, a) by {
      assert (a + b - s) % Modulus == 0;
    }
    WrapUnique(s - b, a);
  }

  /** Adding what was subtracted gives back the original value, overflow or not. */
  lemma {:induction false} SubThenAdd(a: int32, b: int32)
    ensures Add(Sub(a, b), b) == a
  {
    var s := Sub(a, b);
    assert Congruent(s + b, a) by {
      assert (a - b - s) % Modulus == 0;
    }
    WrapUnique(s + b, a);
  }
}

=== FILE: moving_object.dfy ===
/** `MovingObject`, the base class of the player and of the enemies, is not
    part of this model: its linecast and physics decide whether a step
    succeeds. What the subclasses see of it is one of three outcomes, which
    the model receives as an input. */
module MovingObject {

  /** The outcome of one `AttemptMove<T>`: the step was taken, it was blocked
      by a component of the expected type `T` (a wall for the player, the
      player for an enemy), which then receives `OnCantMove`, or it was
      blocked by anything else. */
  datatype Outcome = Moved | BlockedByTarget | BlockedByOther
}

=== FILE: player.dfy ===
/** The `Player` component: reads a direction on the player's turn, pays one
    food per attempted step, chops walls, and picks up items. Calls into the
    game manager (`_playersTurn`, `GameOver`) are returned as signals and
    applied by `TurnManager`. */
module PlayerRules {
  import opened Int32
  import opened Grid
  import opened Wrappers
  import opened MovingObject
  import FoodRules
  import opened WallRules

  /** The code defaults of the component's serialized fields. */
  const PointsPerFood: int32 := 10
  const PointsPerSoda: int32 := 20
  const WallDamage: int32 := 1

  /** `food` is `_food`; `enabled` is the component's enabled flag. */
  datatype Player = Player(food: FoodRules.Food, enabled: bool)

  /** `Start`: keep the food saved when the previous level ended, or begin a
      new store with `playerFoodPoints` when nothing was saved. */
  function Start(saved: Option<FoodRules.Food>, playerFoodPoints: int32): (p: Player)
    ensures saved.Some? ==> p.food == saved.value
    ensures saved.None? ==> p.food.amount == playerFoodPoints
    ensures p.enabled
  {
    Player(saved.GetOr(FoodRules.New(playerFoodPoints)), true)
  }

  /** Input normalisation in `Update`: a horizontal component wins and
      silences the vertical one. */
  function Normalise(input: Dir): (d: Dir)
    ensures d.x == input.x
    ensures d.x == 0 || d.y == 0
    ensures input.x == 0 ==> d == input
    ensures d == Zero <==> input == Zero
  {
    if input.x != 0 then Dir(input.x, 0) else input
  }

  /** Raw axis values in {-1, 0, 1} (the keyboard or the swipe detector)
      normalise to at most one unit step, never to a diagonal. */
  lemma {:induction false} NormaliseKeepsUnitSteps(input: Dir)
    requires IsUnitComponent(input.x) && IsUnitComponent(input.y)
    ensures AtMostOneAxis(Normalise(input))
    ensures input != Zero ==> IsCardinal(Normalise(input))
  {
  }

  /** `CheckIfGameOver`: the game is lost when no food is left. */
  predicate OutOfFood(f: FoodRules.Food) {
    f.amount <= 0
  }

  /** The player after losing food, and whether `GameOver` was called. */
  datatype Loss = Loss(player: Player, gameOver: bool)

  /** `LoseFood(loss)`: take `loss` points, then check for game over. */
  function LoseFood(p: Player, loss: int32): (r: Loss)
    ensures InRange(p.food.amount - loss) ==> r.player.food.amount == p.food.amount - loss
    ensures Congruent(p.food.amount - loss, r.player.food.amount)
    ensures r.player.enabled == p.enabled
    ensures r.gameOver <==> r.player.food.amount <= 0
  {
    var f := FoodRules.Remove(p.food, loss);
    Loss(p.(food := f), OutOfFood(f))
  }

  /** The effects of one attempted step: the player, the wall in the way
      (if the step hit one), and whether `GameOver` was called. */
  datatype StepResult = StepResult(player: Player, wall: Wall, gameOver: bool)

  /** `AttemptMove<Wall>`: one food is paid whether or not the step succeeds;
      a step blocked by a wall chops it (`OnCantMove`) by `WallDamage`; then
      the game-over check runs. */
  function AttemptMove(p: Player, wall: Wall, outcome: Outcome): (r: StepResult)
    ensures InRange(p.food.amount - 1) ==> r.player.food.amount == p.food.amount - 1
    ensures Congruent(p.food.amount - 1, r.player.food.amount)
    ensures r.player.enabled == p.enabled
    ensures outcome == BlockedByTarget ==> r.wall == DamageWall(wall, WallDamage)
    ensures outcome != BlockedByTarget ==> r.wall == wall
    ensures r.gameOver <==> r.player.food.amount <= 0
  {
    var f := FoodRules.Remove(p.food, 1);
    var w := if outcome == BlockedByTarget then DamageWall(wall, WallDamage) else wall;
    StepResult(p.(food := f), w, OutOfFood(f))
  }

  /** One frame of the player: `moved` says whether a step was attempted (and
      so the turn was handed over), `dir` is the direction it was attempted in. */
  datatype Frame = Frame(player: Player, wall: Wall, moved: bool, dir: Dir, gameOver: bool)

  /** `Update`: nothing happens unless it is the player's turn (and, as for
      every Unity component, the player is enabled); otherwise a non-zero
      normalised direction is attempted. */
  function Update(p: Player, playersTurn: bool, input: Dir, wall: Wall, outcome: Outcome): (r: Frame)
    ensures r.moved <==> p.enabled && playersTurn && input != Zero
    ensures !r.moved ==> r.player == p && r.wall == wall && !r.gameOver
    ensures r.moved ==> r.dir == Normalise(input) && r.dir != Zero
    ensures r.moved ==> Congruent(p.food.amount - 1, r.player.food.amount)
    ensures r.moved && InRange(p.food.amount - 1) ==> r.player.food.amount == p.food.amount - 1
    ensures r.moved ==> (r.gameOver <==> r.player.food.amount <= 0)
    ensures r.moved ==> r.player.enabled == p.enabled
    ensures r.moved ==> r.wall == (if outcome == BlockedByTarget then DamageWall(wall, WallDamage) else wall)
  {
    if !p.enabled || !playersTurn then
      Frame(p, wall, false, Zero, false)
    else
      var d := Normalise(input);
      if d == Zero then
        Frame(p, wall, false, Zero, false)
      else
        var s := AttemptMove(p, wall, outcome);
        Frame(s.player, s.wall, true, d, s.gameOver)
  }

  /** Tags of the trigger colliders the player can walk into. */
  datatype Tag = ExitTag | FoodTag | SodaTag | OtherTag

  /** What `OnTriggerEnter2D` did: the player, whether the item touched was
      switched off, and whether the level restart was scheduled. */
  datatype Pickup = Pickup(player: Player, consumed: bool, restart: bool)

  /** `OnTriggerEnter2D` as the code is written: a "Food" item takes
      `PointsPerFood` away, although it is announced as a gain. */
  function OnTriggerEnterAsWritten(p: Player, tag: Tag): (r: Pickup)
    ensures tag == FoodTag ==> r.player.food == FoodRules.Remove(p.food, PointsPerFood)
    ensures tag == FoodTag ==> r.consumed && !r.restart && r.player.enabled == p.enabled
    ensures tag != FoodTag ==> r == OnTriggerEnter(p, tag)
  {
    match tag
    case FoodTag => Pickup(p.(food := FoodRules.Remove(p.food, PointsPerFood)), true, false)
    case _ => OnTriggerEnter(p, tag)
  }

  /** Walking onto food as the code is written costs food: 100 points become 90
      instead of 110. */
  lemma FoodPickupAsWrittenLosesPoints()
    ensures OnTriggerEnterAsWritten(Player(FoodRules.Food(100), true), FoodTag).player.food.amount == 90
  {
  }

  /** `OnTriggerEnter2D` with the food pickup adding its points: the exit
      switches the player off and schedules the restart, food and soda add
      their points and are consumed, anything else is ignored. No pickup runs
      the game-over check. */
  function OnTriggerEnter(p: Player, tag: Tag): (r: Pickup)
    ensures r.restart <==> tag == ExitTag
    ensures r.consumed <==> tag == FoodTag || tag == SodaTag
    ensures r.player.enabled <==> p.enabled && tag != ExitTag
    ensures tag == ExitTag || tag == OtherTag ==> r.player.food == p.food
    ensures tag == FoodTag ==> Congruent(p.food.amount + PointsPerFood, r.player.food.amount)
    ensures tag == SodaTag ==> Congruent(p.food.amount + PointsPerSoda, r.player.food.amount)
    ensures tag == FoodTag && InRange(p.food.amount + PointsPerFood) ==> r.player.food.amount == p.food.amount + PointsPerFood
    ensures tag == SodaTag && InRange(p.food.amount + PointsPerSoda) ==> r.player.food.amount == p.food.amount + PointsPerSoda
  {
    match tag
    case ExitTag => Pickup(p.(enabled := false), false, true)
    case FoodTag => Pickup(p.(food := FoodRules.Add(p.food, PointsPerFood)), true, false)
    case SodaTag => Pickup(p.(food := FoodRules.Add(p.food, PointsPerSoda)), true, false)
    case OtherTag => Pickup(p, false, false)
  }

  /** With pickups adding their points, no item lowers the food. */
  lemma {:induction false} PickupNeverLosesFood(p: Player, tag: Tag)
    requires p.food.amount <= Max - PointsPerSoda
    ensures OnTriggerEnter(p, tag).player.food.amount >= p.food.amount
  {
  }
}

=== FILE: touch.dfy ===
/** `TouchInput`: turns a finger swipe into a unit step. The detector is a
    two-phase machine over the touch origin: a touch that begins records
    where it began (arming the detector when that lies at x >= 0); a touch
    that ends while armed yields one step along the dominant axis of the
    swipe and disarms it. Touch positions are `real`s; the single-precision
    rounding of Unity's `Vector2` is not modelled. */
module TouchSwipe {
  import opened Grid
  import opened Wrappers

  /** Unity's `TouchPhase`. */
  datatype Phase = Began | Moved | Stationary | Ended | Canceled

  /** The first touch of a frame (`Input.touches[0]`). */
  datatype Touch = Touch(phase: Phase, x: real, y: real)

  /** `_touchOrigin`. */
  datatype Detector = Detector(originX: real, originY: real)

  /** The origin starts at (-1, -1): not armed. */
  const Initial: Detector := Detector(-1.0, -1.0)

  /** An `Ended` touch is only classified when the origin's x is not negative. */
  predicate Armed(s: Detector) {
    s.originX >= 0.0
  }

  function RAbs(r: real): real {
    if r < 0.0 then -r else r
  }

  /** The step for a swipe of (dx, dy): horizontal when the swipe is strictly
      wider than it is tall, vertical otherwise (ties included), pointing the
      way the swipe went, with "not positive" counting as negative. */
  function Classify(dx: real, dy: real): (d: Dir)
    ensures IsCardinal(d)
    ensures d.x != 0 <==> RAbs(dx) > RAbs(dy)
    ensures d.x != 0 ==> (d.x == 1 <==> dx > 0.0)
    ensures d.y != 0 ==> (d.y == 1 <==> dy > 0.0)
  {
    if RAbs(dx) > RAbs(dy) then
      Dir(if dx > 0.0 then 1 else -1, 0)
    else
      Dir(0, if dy > 0.0 then 1 else -1)
  }

  datatype Reading = Reading(detector: Detector, dir: Dir)

  /** `GetInput` for one frame; `touch` is `None` when `Input.touchCount` is 0. */
  function GetInput(s: Detector, touch: Option<Touch>): (r: Reading)
    ensures AtMostOneAxis(r.dir)
    ensures touch.None? ==> r == Reading(s, Zero)
    ensures touch.Some? && touch.value.phase == Began ==>
              r == Reading(Detector(touch.value.x, touch.value.y), Zero)
    ensures r.dir != Zero <==> touch.Some? && touch.value.phase == Ended && Armed(s)
    ensures r.dir != Zero ==>
              r.dir == Classify(touch.value.x - s.originX, touch.value.y - s.originY)
              && r.detector == s.(originX := -1.0) && !Armed(r.detector)
    ensures touch.Some? && touch.value.phase != Began && r.dir == Zero ==> r.detector == s
  {
    match touch
    case None => Reading(s, Zero)
    case Some(t) =>
      if t.phase == Began then
        Reading(Detector(t.x, t.y), Zero)
      else if t.phase == Ended && Armed(s) then
        Reading(s.(originX := -1.0), Classify(t.x - s.originX, t.y - s.originY))
      else
        Reading(s, Zero)
  }

  /** A tap, a touch that ends where it began, reads as a step down. */
  lemma {:induction false} TapIsStepDown(x: real, y: real)
    requires x >= 0.0
    ensures GetInput(Detector(x, y), Some(Touch(Ended, x, y))).dir == Dir(0, -1)
  {
  }

  /** The directions read over a series of frames. */
  function Outputs(s: Detector, touches: seq<Option<Touch>>): (out: seq<Dir>)
    ensures |out| == |touches|
    decreases |touches|
  {
    if touches == [] then []
    else
      var r := GetInput(s, touches[0]);
      [r.dir] + Outputs(r.detector, touches[1..])
  }

  predicate EndedAt(touches: seq<Option<Touch>>, l: int)
    requires 0 <= l < |touches|
  {
    touches[l].Some? && touches[l].value.phase == Ended
  }

  /** Frame `j` begins a touch at x >= 0, and no touch ends between `j` and `k`. */
  predicate ArmedSince(touches: seq<Option<Touch>>, j: int, k: int)
    requires 0 <= j < k <= |touches|
  {
    && touches[j].Some? && touches[j].value.phase == Began && touches[j].value.x >= 0.0
    && forall l :: j < l < k ==> !EndedAt(touches, l)
  }

  /** A step is read only when the detector was armed and no touch has ended
      since, or a touch began at x >= 0 since the previous end. */
  lemma {:induction false} StepNeedsArming(s: Detector, touches: seq<Option<Touch>>, k: nat)
    requires k < |touches|
    ensures Outputs(s, touches)[k] != Zero ==>
              (Armed(s) && forall l :: 0 <= l < k ==> !EndedAt(touches, l))
              || exists j :: 0 <= j < k && ArmedSince(touches, j, k)
    decreases k
  {
    var r := GetInput(s, touches[0]);
    var rest := touches[1..];
    if k > 0 && Outputs(s, touches)[k] != Zero {
      assert Outputs(s, touches)[k] == Outputs(r.detector, rest)[k - 1];
      StepNeedsArming(r.detector, rest, k - 1);
      if Armed(r.detector) && forall l :: 0 <= l < k - 1 ==> !EndedAt(rest, l) {
        assert forall l :: 1 <= l < k ==> !EndedAt(touches, l) by {
          forall l | 1 <= l < k ensures !EndedAt(touches, l) {
            assert !EndedAt(rest, l - 1);
          }
        }
        if touches[0].Some? && touches[0].value.phase == Began {
          assert ArmedSince(touches, 0, k);
        } else {
          assert !EndedAt(touches, 0);
        }
      } else {
        var j :| 0 <= j < k - 1 && ArmedSince(rest, j, k - 1);
        assert ArmedSince(touches, j + 1, k) by {
          forall l | j + 1 < l < k ensures !EndedAt(touches, l) {
            assert !EndedAt(rest, l - 1);
          }
        }
      }
    }
  }

  /** From the initial origin (-1, -1), a touch that ends with no touch
      begun at x >= 0 since the last end reads as no step at all. */
  lemma {:induction false} EndWithoutBeginIsIgnored(touches: seq<Option<Touch>>, k: nat)
    requires k < |touches|
    requires forall j :: 0 <= j < k ==> !ArmedSince(touches, j, k)
    ensures Outputs(Initial, touches)[k] == Zero
  {
    StepNeedsArming(Initial, touches, k);
  }
}

=== FILE: wall.dfy ===
/** The `Wall` component: a destructible inner wall the player chops at. */
module WallRules {
  import opened Int32

  /** `hp` is `_hp`; `damaged` says whether the sprite has been switched to
      `_dmgSprite`; `active` is the game object's active flag. */
  datatype Wall = Wall(hp: int32, damaged: bool, active: bool)

  const InitialHp: int32 := 3

  /** A wall as placed by the board: full hit points, intact sprite, active. */
  function Fresh(): (w: Wall)
    ensures w.hp == InitialHp && w.active && !w.damaged
  {
    Wall(InitialHp, false, true)
  }

  /** `DamageWall(loss)`: every hit shows the damaged sprite and takes `loss`
      hit points; the wall is switched off once its hit points reach zero or
      below, and an active wall with hit points left stays active. */
  function DamageWall(w: Wall, loss: int32): (r: Wall)
    ensures r.damaged
    ensures InRange(w.hp - loss) ==> r.hp == w.hp - loss
    ensures Congruent(w.hp - loss, r.hp)
    ensures r.hp <= 0 ==> !r.active
    ensures r.hp > 0 ==> r.active == w.active
  {
    var hp := Sub(w.hp, loss);
    Wall(hp, true, if hp <= 0 then false else w.active)
  }

  /** The wall after `hits` hits of `loss` each. */
  function Chop(w: Wall, loss: int32, hits: nat): Wall
  {
    if hits == 0 then w else DamageWall(Chop(w, loss, hits - 1), loss)
  }

  /** With the player's default damage of 1, a fresh wall survives two hits
      and falls on the third; until then its hit points count down by one. */
  lemma {:induction false} ThreeHitsToBreak(hits: nat)
    requires hits <= 3
    ensures Chop(Fresh(), 1, hits).hp == InitialHp - hits
    ensures Chop(Fresh(), 1, hits).active <==> hits < 3
    ensures Chop(Fresh(), 1, hits).damaged <==> hits > 0
  {
    if hits > 0 {
      ThreeHitsToBreak(hits - 1);
    }
  }

  /** Once down, a wall stays down whatever further damage it takes. */
  lemma {:induction false} InactiveStaysInactive(w: Wall, loss: int32, hits: nat)
    requires !w.active
    ensures !Chop(w, loss, hits).active
  {
    if hits > 0 {
      InactiveStaysInactive(w, loss, hits - 1);
    }
  }
}

=== FILE: wrappers.dfy ===
/** Optional values and results with an error, for the places where the game
    has "no value" or fails. */
module Wrappers {

  datatype Option<+T> = None | Some(value: T) {

    /** The wrapped value, or `default` when there is none (C#'s `??`). */
    function GetOr(default: T): (r: T)
      ensures Some? ==> r == value
      ensures None? ==> r == default
    {
      match this
      case Some(v) => v
      case None => default
    }
  }

  datatype Result<+T, +E> = Ok(value: T) | Err(error: E)
}
